=== FILE: README.md ===
# parsecmd command parser, in Dafny

A model of `CommandParser`, the core of the parsecmd library for PocketMine commands.
The library turns a usage string such as `ban player(1) -reason()` into a blueprint of
arguments and flags, and then matches the tokens of each invocation against that blueprint.
The model covers four parts of the parser:

- **Blueprint builder** (`generateBlueprint`, module `Blueprints`).
  - The usage string is exploded on single spaces, and every chunk after the command name becomes one descriptor.
  - A chunk's length comes from its rightmost `(...)` group, found as by the lazy pattern `\((.*?)\)`.
  - `()` means -1 (unbounded); any other content is read by PHP's `(int)` cast.
  - A chunk with no group at all is meant to keep the defaults of lines 23-25: the whole chunk as its name, and -1. The code as written does not reach those defaults (see Findings): on PHP 7, the version the file parses under, such a chunk makes `substr` at line 40 throw a TypeError, or, when the chunk holds a NUL character, gets the text before the last NUL as its name and length 0. The model keeps the defaults and models the code as written separately.
  - The name is the chunk text before the last occurrence (`strrpos`) of that group.
  - A chunk starting with `-` is a flag, named by the rest of its name.
  - Any other chunk is an argument, optional when its name starts with `?`; the `?` is dropped from the stored name.
- **Token matcher** (`parse`, module `Matcher`).
  - Phase 1 visits every original index, including indices already claimed by an earlier flag.
    - A token `-name` that names a blueprint flag not yet captured captures the space-join of the next `length` original tokens. An unbounded flag captures every later token.
    - The marker and those tokens are removed from the argument pool. `makeKeys(range(...))` and `array_diff_key` are modelled as a set of removed indices.
  - Phase 2 hands the surviving tokens, in original order, to the arguments in declared order.
    - An argument of fixed length k takes min(k, left).
    - An unbounded argument takes every token left.
    - An empty join becomes `null` (`None`).
- **Duration phrase** (`parseDuration` up to its last line, module `Durations`).
  - The unit symbols `y M w d h m` are tried in that order. Each cuts the remaining characters at its first occurrence.
  - Each cut emits `"<count> <unit> "`, and the accumulated phrase is trimmed.
- **PHP primitives the parser relies on** (modules `Strings` and `PhpInt`): `explode`, `implode`, `strpos(...) === 0`, `strrpos`, `array_search`, `trim` and the `(int)` cast with 64-bit saturation.

The `Scenarios` module works through concrete invocations: `ban player(1) -reason()`, `say message()`, `kick -reason(1) -silent(0)`, `1d12h`, `1h2d` and a bare number.

Three behaviours of the code are easy to misread; the model keeps each as the code has it:

- An unbounded argument in phase 2 gets `count + (-1) + 1`, i.e. **all** remaining tokens, not all but one (`SayParse`: the tokens `a b c` give `a b c`).
- The duration phrase uses singular unit words (`1 day 12 hour`), as the source's unit table does.
- Because phase 1 walks every original index, a token captured as a flag's value can still open its own flag (`KickParse`).

## Model

| member | source | states |
|---|---|---|
| Strings.JoinSplit | src/adeynes/parsecmd/CommandParser.php:16 | `implode` of the chunks of `explode` on the same separator gives the original string back |
| Strings.SplitJoin | src/adeynes/parsecmd/CommandParser.php:16 | `explode` undoes `implode` for at least one part when no part contains the separator |
| Strings.JoinEmpty | src/adeynes/parsecmd/CommandParser.php:94-99 | `implode` yields "" exactly for no parts or a single empty part |
| Strings.StartsWithChar | src/adeynes/parsecmd/CommandParser.php:43 | `strpos($s, c) === 0` holds exactly when `s` is non-empty and begins with `c` |
| Strings.IndexOf | src/adeynes/parsecmd/CommandParser.php:114 | `array_search` finds the first position holding the value, and fails exactly when the value is absent |
| Strings.LastIndexOf | src/adeynes/parsecmd/CommandParser.php:38 | `strrpos` returns an occurrence of the needle with no occurrence after it, and fails only when there is none |
| Strings.Trim | src/adeynes/parsecmd/CommandParser.php:121 | `trim` keeps an infix of the input with only trimmable characters around it and none at its own ends |
| Strings.TrimEmpty | src/adeynes/parsecmd/CommandParser.php:121-123 | `trim` yields "" exactly for strings made only of space, tab, LF, CR, NUL and vertical tab |
| PhpInt.IntCast | src/adeynes/parsecmd/CommandParser.php:35 | the `(int)` cast always lands in the 64-bit range |
| PhpInt.IntCastDigits | src/adeynes/parsecmd/CommandParser.php:35 | the cast reads every 64-bit decimal rendering back as its own value |
| Blueprints.FindFlag | src/adeynes/parsecmd/CommandParser.php:74 | the flag lookup returns a blueprint flag with the requested name, and fails exactly when no flag has that name |
| Blueprints.GetFlag | src/adeynes/parsecmd/CommandParser.php:74 | no contract of its own; it is `Blueprints.FindFlag` on the blueprint's flags, whose contract states the lookup |
| Strings.Split | src/adeynes/parsecmd/CommandParser.php:16 | `explode` gives at least one chunk, and no chunk contains the separator; `Strings.JoinSplit` states that the chunks are the pieces between separators |
| Strings.SplitTwo | src/adeynes/parsecmd/CommandParser.php:16 | two separator-free words around one separator explode into exactly those two words |
| Strings.LastIndexOfChar | src/adeynes/parsecmd/CommandParser.php:38 | `strrpos` with a one-character needle finds nothing exactly when the character is absent, and otherwise its last occurrence |
| Strings.Join | src/adeynes/parsecmd/CommandParser.php:78 | no contract of its own; `Strings.JoinSplit`, `Strings.SplitJoin` and `Strings.JoinEmpty` state what `implode` gives |
| Blueprints.Spans | src/adeynes/parsecmd/CommandParser.php:21 | no contract of its own; `Blueprints.SpansGenuine`, `Blueprints.SpansOrdered`, `Blueprints.SpansLeftmost`, `Blueprints.SpansClosed` and `Blueprints.SpansExhaustive` state which matches `preg_match_all` finds |
| Blueprints.SpansGenuine | src/adeynes/parsecmd/CommandParser.php:21 | every match of `\((.*?)\)` is a `(` closed by the first `)` after it |
| Blueprints.SpansOrdered | src/adeynes/parsecmd/CommandParser.php:21 | the matches come left to right and do not overlap |
| Blueprints.SpansLeftmost | src/adeynes/parsecmd/CommandParser.php:21 | each match starts at the leftmost `(` available: there is no `(` before the first match, and none between one match's `)` and the next match's `(` |
| Blueprints.SpansClosed | src/adeynes/parsecmd/CommandParser.php:21 | every `(` before the last match's `(` is closed by a `)` before that `(` |
| Blueprints.ClosingBefore | src/adeynes/parsecmd/CommandParser.php:21 | for one such `(`, the position of a `)` that closes it before the last match |
| Blueprints.SpansExhaustive | src/adeynes/parsecmd/CommandParser.php:21-28 | no further match exists after the last one, and no match at all exists when the result is empty |
| Blueprints.LastSpan | src/adeynes/parsecmd/CommandParser.php:28-31 | the chunk has a rightmost match exactly when it has any `(` followed by a `)`; nothing after that match can match, and every `(` before it is closed before it |
| Blueprints.LastSpanUnique | src/adeynes/parsecmd/CommandParser.php:21-31 | those three properties single out the rightmost match: any match with them is the one `end($lengths[0])` picks (on `((a)` the match is `((a)`, not `(a)`) |
| Blueprints.LastTagOccurrence | src/adeynes/parsecmd/CommandParser.php:38-40 | `strrpos` of the last tag's text finds that tag itself, never a later copy |
| Blueprints.NameAndLength | src/adeynes/parsecmd/CommandParser.php:23-40 | no contract of its own; `Blueprints.NameBeforeLastTag` states it, with the intended defaults for an untagged chunk (see Findings) |
| Blueprints.TagLength | src/adeynes/parsecmd/CommandParser.php:33-36 | no contract of its own; `Blueprints.DescribeTagged` and `Blueprints.RenderedNameAndLength` state the lengths it gives |
| Blueprints.NameBeforeLastTag | src/adeynes/parsecmd/CommandParser.php:23-40 | for a tagged chunk, the name is the text before the rightmost tag's `(` and the length comes from that tag alone; for an untagged chunk, the intended defaults of lines 23-25 (whole chunk, -1), which the code as written does not reach (see Findings) |
| Blueprints.TaggedChunk | src/adeynes/parsecmd/CommandParser.php:28-40 | a chunk `prefix(content)` with no open group in `prefix` and no `)` in `content` has name `prefix` and the length of `content`, whatever complete groups `prefix` holds |
| Blueprints.UntaggedChunk | src/adeynes/parsecmd/CommandParser.php:23-53 | the intended reading of a chunk with no group, from the defaults of lines 23-25 (the code as written throws instead, see Findings): unbounded, and a flag named by the rest, an optional argument named by the rest, or a required argument named by the whole chunk |
| Blueprints.DescribeChunk | src/adeynes/parsecmd/CommandParser.php:43-53 | a chunk becomes a flag exactly when it starts with `-`, and any bounded length comes from a tag |
| Blueprints.Classify | src/adeynes/parsecmd/CommandParser.php:43-53 | the descriptor is a flag exactly when the chunk starts with `-`, whatever the name, and it keeps the length it is given; a flag's name is the name less its first character (line 44); an argument is optional exactly when the name starts with `?`, and the name is the argument's name with that `?` put back (lines 47-49) |
| Blueprints.DescribeTagged | src/adeynes/parsecmd/CommandParser.php:28-53 | a tagged chunk read off the chunk itself, with `sp` its rightmost tag: a `-` chunk is the flag named by the text between the `-` and `sp`; a `?` chunk is the optional argument named by the text between the `?` and `sp`; any other chunk is the required argument named by the text before `sp`; the length is the tag's |
| Blueprints.Describe | src/adeynes/parsecmd/CommandParser.php:16-54 | one descriptor per chunk, in chunk order, each the one `Blueprints.DescribeChunk` gives that chunk |
| Blueprints.ArgumentsOf | src/adeynes/parsecmd/CommandParser.php:45-52 | no contract of its own; `Blueprints.PartitionSizes`, `Blueprints.ArgumentsOfAppend` and `Blueprints.DescribeRenderedArguments` state which descriptors it keeps and in what order |
| Blueprints.FlagsOf | src/adeynes/parsecmd/CommandParser.php:43-44 | no contract of its own; `Blueprints.PartitionSizes`, `Blueprints.FlagsOfAppend` and `Blueprints.DescribeRenderedFlags` state which descriptors it keeps and in what order |
| Blueprints.PartitionSizes | src/adeynes/parsecmd/CommandParser.php:43-53 | every descriptor becomes exactly one argument or one flag |
| Blueprints.ArgumentsOfAppend | src/adeynes/parsecmd/CommandParser.php:45-52 | arguments are collected in chunk order: the arguments of two runs of chunks are those of the first followed by those of the second |
| Blueprints.FlagsOfAppend | src/adeynes/parsecmd/CommandParser.php:43-44 | flags are collected in chunk order: the flags of two runs of chunks are those of the first followed by those of the second |
| Blueprints.DescribeRenderedArguments | src/adeynes/parsecmd/CommandParser.php:45-52 | chunks rendered from arguments describe exactly those arguments, in order, and no flag |
| Blueprints.DescribeRenderedFlags | src/adeynes/parsecmd/CommandParser.php:43-44 | chunks rendered from flags describe exactly those flags, in order, and no argument |
| Blueprints.GenerateBlueprint | src/adeynes/parsecmd/CommandParser.php:16-57 | the usage string is kept verbatim, and there is one argument or flag per chunk after the command name |
| Blueprints.UntaggedUsage | src/adeynes/parsecmd/CommandParser.php:16-25 | under the intended defaults (see Findings), a usage string without `(` declares only unbounded arguments and flags |
| Blueprints.RenderedNameAndLength | src/adeynes/parsecmd/CommandParser.php:28-40 | a chunk rendered as marker, plain name and length tag reads back as that marker and name with that length |
| Blueprints.DescribeRenderedArgument | src/adeynes/parsecmd/CommandParser.php:45-52 | a rendered argument (`?` prefix when optional) is described as exactly that argument |
| Blueprints.DescribeRenderedFlag | src/adeynes/parsecmd/CommandParser.php:43-44 | a rendered flag `-name(len)` is described as exactly that flag |
| Blueprints.SplitRendered | src/adeynes/parsecmd/CommandParser.php:16 | the chunks of a rendered usage string are the command followed by the rendered declarations |
| Blueprints.GenerateRendered | src/adeynes/parsecmd/CommandParser.php:9-57 | round trip: building a blueprint from a rendered usage string gives back exactly the rendered arguments and flags, in order |
| Blueprints.NameAndLengthAsWritten | src/adeynes/parsecmd/CommandParser.php:20-41 | lines 20-41 as written under PHP 7: a chunk throws (`None`) exactly when it has neither a tag nor a NUL; a tagged chunk gets the same name and length as `Blueprints.NameAndLength`; an untagged chunk with a NUL is named by the text before its last NUL, with length 0 |
| Blueprints.DescribeAsWritten | src/adeynes/parsecmd/CommandParser.php:16-54 | the loop as written throws exactly when some chunk has neither a tag nor a NUL; otherwise there is one descriptor per chunk, a flag exactly when the chunk starts with `-`, equal to `Blueprints.DescribeChunk`'s for a tagged chunk; an untagged one is `Blueprints.Classify` of the NUL-cut name with length 0 |
| Blueprints.DescribeAsWrittenTagged | src/adeynes/parsecmd/CommandParser.php:16-54 | when every chunk has a tag, the loop as written yields exactly the descriptors of `Blueprints.Describe` |
| Blueprints.GenerateBlueprintAsWritten | src/adeynes/parsecmd/CommandParser.php:9-57 | `generateBlueprint` as written throws exactly when a chunk after the command name has neither a tag nor a NUL; otherwise it keeps the usage and declares one argument or flag per such chunk; when every such chunk has a tag it builds `Blueprints.GenerateBlueprint`'s blueprint |
| Blueprints.TaggedTail | src/adeynes/parsecmd/CommandParser.php:16-54 | when every chunk after the command name has a tag, the loop as written over those chunks agrees with `Blueprints.Describe` |
| Blueprints.UntaggedChunkThrows | src/adeynes/parsecmd/CommandParser.php:23-41 | the discrepancy on one chunk: with neither a tag nor a NUL the code as written throws, while the defaults of lines 23-25 give the whole chunk and -1 |
| Blueprints.UntaggedNulChunk | src/adeynes/parsecmd/CommandParser.php:23-41 | the discrepancy on an untagged chunk with a NUL: the code as written gives a shorter name and length 0, while the defaults give the whole chunk and -1 |
| Matcher.Range | src/adeynes/parsecmd/CommandParser.php:82 | `range(lo, hi)` starts at `lo`, ends at `hi` and holds exactly the integers between them |
| Matcher.MakeKeys | src/adeynes/parsecmd/CommandParser.php:131-140 | the keys are exactly the listed values, each mapped to "" |
| Matcher.ArraySlice | src/adeynes/parsecmd/CommandParser.php:78 | `array_slice` is a contiguous window from the offset, of the requested length clamped to the end, or short of the end for a negative length |
| Matcher.MarkerName | src/adeynes/parsecmd/CommandParser.php:68-71 | a token names a flag exactly when it starts with `-`, and the name is the token without that `-` |
| Matcher.EffectiveLength | src/adeynes/parsecmd/CommandParser.php:76-77 | no contract of its own; `Matcher.FlagValueWindow` and `Matcher.FlagKeysWindow` state how -1 becomes the token count in both the value and the removed keys |
| Matcher.FlagValue | src/adeynes/parsecmd/CommandParser.php:76-78 | no contract of its own; `Matcher.FlagValueWindow` states the tokens a flag captures |
| Matcher.FlagKeys | src/adeynes/parsecmd/CommandParser.php:82 | no contract of its own; `Matcher.FlagKeysWindow` states the keys a flag removes |
| Matcher.ScanToken | src/adeynes/parsecmd/CommandParser.php:67-83 | no contract of its own; `Matcher.ScanSkips` and `Matcher.ScanOpens` state one iteration |
| Matcher.ScanFlags | src/adeynes/parsecmd/CommandParser.php:67-83 | no contract of its own; `Matcher.ScanFlagsSpec` states the loop's result after any number of iterations |
| Matcher.ScanFlagsSpec | src/adeynes/parsecmd/CommandParser.php:63-83 | after any number of iterations, a flag is captured exactly when it is a blueprint flag whose marker has been seen; its value is what its first marker captures; the removed keys are exactly those of the opening markers |
| Matcher.ScanSkips | src/adeynes/parsecmd/CommandParser.php:68-74 | a non-marker, an unknown flag or a repeated marker leaves the state unchanged |
| Matcher.ScanOpens | src/adeynes/parsecmd/CommandParser.php:76-82 | the first marker of a blueprint flag stores its value and removes its keys |
| Matcher.FlagValueWindow | src/adeynes/parsecmd/CommandParser.php:76-78 | a flag of length n opened at `i` captures the tokens at i+1 … i+n, clamped to the end; an unbounded flag captures every later token |
| Matcher.FlagKeysWindow | src/adeynes/parsecmd/CommandParser.php:82 | the keys a flag removes are exactly i … i+length, with -1 read as the token count |
| Matcher.PoolMembership | src/adeynes/parsecmd/CommandParser.php:82 | an index survives into the pool exactly when no opening marker's removal range covers it |
| Matcher.Remaining | src/adeynes/parsecmd/CommandParser.php:82 | every surviving index lies in range and was not removed |
| Matcher.RemainingExact | src/adeynes/parsecmd/CommandParser.php:82 | an index in range survives exactly when it was not removed, and the survivors come in increasing order |
| Matcher.RemainingSnoc | src/adeynes/parsecmd/CommandParser.php:82 | one more index joins the end of the surviving indices exactly when it was not removed |
| Matcher.ParsePool | src/adeynes/parsecmd/CommandParser.php:67-96 | no contract of its own; `Matcher.PoolMembership` states which tokens survive phase 1, `Matcher.PoolSnoc` that they keep their order, and `Matcher.ParseValues` what the arguments get from them |
| Matcher.Pool | src/adeynes/parsecmd/CommandParser.php:82-96 | no contract of its own; `Matcher.PoolMembership` and `Matcher.PoolSnoc` state which tokens survive and in what order |
| Matcher.PoolSnoc | src/adeynes/parsecmd/CommandParser.php:82-96 | one more input token is appended to the end of the pool when phase 1 kept it, and left out when phase 1 removed it, so the pool keeps input order |
| Matcher.PoolUntouched | src/adeynes/parsecmd/CommandParser.php:64-96 | when nothing is removed, phase 2 reads the whole input unchanged |
| Matcher.TakeCount | src/adeynes/parsecmd/CommandParser.php:89-96 | an argument takes min(length, left) tokens for a fixed length, and every token left for -1 |
| Matcher.Entry | src/adeynes/parsecmd/CommandParser.php:94-99 | no contract of its own; `Matcher.EntryIsNull` states when an argument's value is `null` |
| Matcher.EntryIsNull | src/adeynes/parsecmd/CommandParser.php:94-99 | an argument's value is `null` exactly when it took no token or a single empty token |
| Matcher.Consumed | src/adeynes/parsecmd/CommandParser.php:88-97 | there is one slice per argument, and together the slices form a prefix of the pool |
| Matcher.ConsumedSlice | src/adeynes/parsecmd/CommandParser.php:88-97 | argument j takes its window from where argument j-1 stopped |
| Matcher.UnboundedTakesRest | src/adeynes/parsecmd/CommandParser.php:90-96 | once an unbounded argument is reached, the pool is used up and every later argument takes nothing |
| Matcher.NothingLeft | src/adeynes/parsecmd/CommandParser.php:94-99 | with an empty pool every argument takes nothing |
| Matcher.AssignArguments | src/adeynes/parsecmd/CommandParser.php:88-101 | no contract of its own; `Matcher.AssignKeys`, `Matcher.AssignValues` and `Matcher.AssignWindows` state the map it builds |
| Matcher.AssignKeys | src/adeynes/parsecmd/CommandParser.php:101 | the argument map gains exactly one key per declared name |
| Matcher.AssignValues | src/adeynes/parsecmd/CommandParser.php:88-101 | each argument's name holds the value of its slice, a later argument with the same name overwriting an earlier one |
| Matcher.AssignWindows | src/adeynes/parsecmd/CommandParser.php:88-101 | every argument that is the last of its name holds its window of the pool, taken where the previous argument stopped, `null` when that window joins to "" |
| Matcher.ParseFlagValues | src/adeynes/parsecmd/CommandParser.php:67-78 | every flag whose first marker sits at index j holds the join of the tokens that marker captures |
| Matcher.Parse | src/adeynes/parsecmd/CommandParser.php:61-105 | every declared argument name gets an entry, and a flag is present exactly when it is a blueprint flag whose marker appears among the tokens |
| Matcher.ParseValues | src/adeynes/parsecmd/CommandParser.php:61-105 | every flag holds what its first marker captures, and every argument holds its window of the pool, `null` when that window joins to "" |
| Durations.Pieces | src/adeynes/parsecmd/CommandParser.php:109-119 | no contract of its own; it is `Durations.Cut` under the table of line 110, so `Durations.CutEmits` states which units it emits; `Durations.NoSymbolNoPiece`, `Durations.SymbolMakesPiece` and `Durations.CompactPieces` state it directly |
| Durations.NoSymbolNoPiece | src/adeynes/parsecmd/CommandParser.php:113-114 | a duration with none of the six symbols yields no piece |
| Durations.SymbolMakesPiece | src/adeynes/parsecmd/CommandParser.php:113-117 | a duration holding one of the six symbols yields at least one piece, whose unit has a word |
| Durations.CompactPieces | src/adeynes/parsecmd/CommandParser.php:109-119 | round trip under the table of line 110: cutting the compact text of well-formed pieces gives those pieces back, and every unit has a word |
| Durations.Cut | src/adeynes/parsecmd/CommandParser.php:113-119 | no contract of its own; `Durations.CutEmits`, `Durations.CutUnits`, `Durations.CutConsumesPrefix`, `Durations.CutAtFirst` and `Durations.CutCompact` state the loop |
| Durations.CutEmits | src/adeynes/parsecmd/CommandParser.php:113-119 | for every input and every unit `k`: what `k` sees is the input less the compact text of the earlier units' pieces; `k` emits a piece exactly when its symbol occurs there, and that piece, right after the earlier ones, counts the text before the symbol's first occurrence there |
| Durations.CutUnits | src/adeynes/parsecmd/CommandParser.php:113-119 | units are taken in table order, each at most once |
| Durations.CutConsumesPrefix | src/adeynes/parsecmd/CommandParser.php:114-118 | the counts and symbols taken form a prefix of the input, each count followed by its symbol |
| Durations.CutAtFirst | src/adeynes/parsecmd/CommandParser.php:114-116 | no count contains its own unit's symbol, because the cut is at the first occurrence |
| Durations.NothingToCut | src/adeynes/parsecmd/CommandParser.php:113-114 | when none of the remaining symbols occurs, the loop adds nothing |
| Durations.SomethingToCut | src/adeynes/parsecmd/CommandParser.php:114-117 | when any remaining symbol occurs, the loop adds a piece |
| Durations.CutCompact | src/adeynes/parsecmd/CommandParser.php:109-119 | round trip: cutting the compact text of well-formed pieces gives those pieces back |
| Durations.SymbolsTable | src/adeynes/parsecmd/CommandParser.php:110 | the unit table has six distinct symbols, one per unit word |
| Durations.PhraseOf | src/adeynes/parsecmd/CommandParser.php:117 | no contract of its own; `Durations.PhraseIsJoin` states the accumulated phrase |
| Durations.PhraseIsJoin | src/adeynes/parsecmd/CommandParser.php:117 | the accumulated phrase is "count unit" for each piece, space-joined, plus one trailing space |
| Durations.PhraseTrimmed | src/adeynes/parsecmd/CommandParser.php:121 | trimming removes exactly that trailing space when the first count starts with a visible character |
| Durations.DurationPhrase | src/adeynes/parsecmd/CommandParser.php:121 | no contract of its own; `Durations.PhraseTrimmed` and `Durations.CompactDuration` state the trimmed phrase |
| Durations.ParseDuration | src/adeynes/parsecmd/CommandParser.php:121-123 | no contract of its own; `Durations.DurationNow` states when it resolves to now |
| Durations.DurationNow | src/adeynes/parsecmd/CommandParser.php:121-123 | a duration resolves to now exactly when it contains none of the six symbols |
| Durations.CompactDuration | src/adeynes/parsecmd/CommandParser.php:109-121 | a compact duration with digit counts reads back as "count unit count unit …" in unit order |
| Scenarios.BanUsageBlueprint | src/adeynes/parsecmd/CommandParser.php:9-57 | `ban player(1) -reason()` declares a required `player` of length 1 and an unbounded flag `reason` |
| Scenarios.BanPlayerThrows | src/adeynes/parsecmd/CommandParser.php:9-57 | `ban player`: the code as written throws, while the intended blueprint is one unbounded required argument `player` |
| Scenarios.NulOptionalArgument | src/adeynes/parsecmd/CommandParser.php:16-54 | as written, the chunk `?a`, NUL, `b` declares the optional argument `a` of length 0 |
| Scenarios.NulChunkAsWritten | src/adeynes/parsecmd/CommandParser.php:23-41 | the chunk `a`, NUL, `b` reads as written as `a` of length 0, while the intended reading is the whole chunk, unbounded |
| Scenarios.BanParse | src/adeynes/parsecmd/CommandParser.php:61-105 | `Steve -reason being mean` gives player `Steve` and reason `being mean` |
| Scenarios.BanParseWithoutReason | src/adeynes/parsecmd/CommandParser.php:61-105 | without its marker the flag is absent from the result, not empty |
| Scenarios.SayParse | src/adeynes/parsecmd/CommandParser.php:89-96 | an unbounded argument given `a b c` takes all three tokens |
| Scenarios.KickParse | src/adeynes/parsecmd/CommandParser.php:67-83 | a token captured by `-reason(1)` still opens `-silent(0)`, which captures "" |
| Scenarios.DayAndHalf | src/adeynes/parsecmd/CommandParser.php:109-121 | `1d12h` becomes the phrase `1 day 12 hour` |
| Scenarios.TrailingCountDropped | src/adeynes/parsecmd/CommandParser.php:109-121 | `1d2h3` cuts into `1` day and `2` hour only, and becomes `1 day 2 hour`: text after the last symbol is dropped |
| Scenarios.OutOfOrderUnits | src/adeynes/parsecmd/CommandParser.php:113-119 | `1h2d` becomes `1h2 day`, since hours are looked for only after days |
| Scenarios.DigitsOnlyDuration | src/adeynes/parsecmd/CommandParser.php:121-123 | a bare number names no unit and resolves to now |

## Left out

- `time()` and `strtotime` (line 123): they read the wall clock and resolve natural-language dates. The model stops at the phrase (`Resolution.Relative`) or at `Now`.
- The `Command`, `CommandBlueprint`, `Flag`, `Argument` and `ParsedCommand` classes: CommandBlueprint.php and the other class files are not part of this model. They are modelled as plain datatypes.
- `getFlag`: modelled as the first blueprint flag with the requested name (`FindFlag`). Which duplicate the real class returns is not visible.
- The `(int)` cast: modelled as leading whitespace, an optional sign and the maximal digit run, saturated to 64 bits. Exponent and other numeric-string forms such as `1e3` are not modelled.
- The result maps: they are Dafny maps, so PHP's insertion order of keys is not modelled. Duplicate argument names still overwrite, as the map assignment at line 101 does.
- Token lists are assumed to be PHP lists keyed 0 … n-1, as the command framework passes them. Arrays with other keys are not modelled.
- Memory and time: a huge `range` or token list cannot fail in the model.
- Strings as bytes: PHP strings, including what `str_split` (line 112) splits, are byte strings, while the model uses sequences of characters. Every symbol and separator the parser looks for is ASCII, so on valid UTF-8 input the results agree, with counts and names made of the same text. Byte strings that are not valid UTF-8 are not modelled.
- The regex `.` not matching newlines: usage chunks are taken to contain no newline. A chunk with a newline inside a group would be matched differently.
- PHP 8: the string offset `$name{0}` (line 47) is a parse error there, so the whole file runs only on PHP 7, which the model follows. On PHP 7 an empty name gives a notice and `""`; the model treats an empty name as not optional. The deprecation notice PHP 7.3 and later raise for the non-string needle of `strrpos` (line 38) is not modelled.
- The no-op statement `[1, 2, 3, 4, 5];` (line 87): it has no effect.
- Matcher.Parse: its contract states the key sets only; the values are stated by `Matcher.ParseValues`.
- Blueprints.GenerateBlueprint: its contract states the count and the stored usage; the descriptors themselves are stated by `Blueprints.NameBeforeLastTag`, `Blueprints.DescribeTagged`, `Blueprints.UntaggedChunk` and `Blueprints.GenerateRendered`.
- Blueprints.GenerateBlueprint: it models the evidently intended defaults for a chunk without a tag, not what the code as written does with it (a TypeError, or a NUL-cut name of length 0); `Blueprints.GenerateBlueprintAsWritten` models that (see Findings).

## Findings

| source | as written | input that shows it | evidently intended | confidence | as-written member | corrected member |
|---|---|---|---|---|---|---|
| src/adeynes/parsecmd/CommandParser.php:28 | `$lengths !== [[]]` is always true, because `preg_match_all` with one group fills `[[], []]` when nothing matches. An untagged chunk then gets `end([])`, i.e. `false`, as its tag and length 0. On PHP 7, `strrpos` (line 38) reads the needle `false` as the NUL character; with no NUL in the chunk it returns `false`, and `substr` (line 40) then throws a TypeError under `strict_types` (line 2). With a NUL, the name is cut at the last one. | `ban player` (throws); `a`, NUL, `b` (named `a`, length 0) | the defaults of lines 23-25: name `player`, length -1 | not executed | Blueprints.NameAndLengthAsWritten, Blueprints.GenerateBlueprintAsWritten, Scenarios.BanPlayerThrows, Scenarios.NulChunkAsWritten | Blueprints.UntaggedChunk |

=== FILE: blueprint.dfy ===
/**
 The blueprint builder: a usage string such as `ban player(1) -reason()` becomes the
 positional arguments and the flags a command expects, each with a length tag.
 */
module Blueprints {
  import opened Wrappers
  import opened Strings
  import opened PhpInt

  /** A positional capture: `length` tokens, -1 for "all that remain". */
  datatype Argument = Argument(name: string, length: int, optional: bool)

  /** A named capture introduced by `-name` in the input. */
  datatype Flag = Flag(name: string, length: int)

  /** Arguments in declared order, flags in declared order, and the usage string it came from. */
  datatype Blueprint = Blueprint(arguments: seq<Argument>, flags: seq<Flag>, usage: string)

  /** The length a missing or empty tag stands for. */
  const Unbounded: int := -1

  /** The first flag of `flags` called `name`, if any. */
  function FindFlag(flags: seq<Flag>, name: string): (r: Option<Flag>)
    ensures r.Some? ==> r.value in flags && r.value.name == name
    ensures r.None? <==> forall f :: f in flags ==> f.name != name
  {
    if |flags| == 0 then None
    else if flags[0].name == name then Some(flags[0])
    else
      var r := FindFlag(flags[1..], name);
      assert forall f :: f in flags ==> f == flags[0] || f in flags[1..];
      r
  }

  /** `CommandBlueprint::getFlag`: the blueprint's flag called `name`, if any. */
  function GetFlag(bp: Blueprint, name: string): Option<Flag>
  {
    FindFlag(bp.flags, name)
  }

  // ---------------------------------------------------------------------------
  // Length tags: the matches of the pattern \((.*?)\)
  // ---------------------------------------------------------------------------

  /** Positions of one match: the `(` and the `)` that close it. */
  datatype Span = Span(open: nat, close: nat)

  /** `sp` is a match of the lazy pattern: `(` at `open`, and `close` the first `)` after it. */
  predicate IsTagSpan(s: string, sp: Span) {
    && sp.open < sp.close < |s|
    && s[sp.open] == '('
    && s[sp.close] == ')'
    && forall k :: sp.open < k < sp.close ==> s[k] != ')'
  }

  /** No `(` at or after `from` is followed by a `)`: the pattern has no match there. */
  predicate NoTagFrom(s: string, from: nat) {
    forall a, b :: from <= a < b < |s| && s[a] == '(' ==> s[b] != ')'
  }

  /** `s` holds at least one parenthesised group. */
  predicate HasTag(s: string) {
    !NoTagFrom(s, 0)
  }

  /**
   `preg_match_all` with the lazy pattern, scanning from `from`: each match starts at the
   first `(` left and ends at the first `)` after it.
   */
  function Spans(s: string, from: nat): seq<Span>
    requires from <= |s|
    decreases |s| - from
  {
    match FindFrom(s, '(', from)
    case None => []
    case Some(p) =>
      match FindFrom(s, ')', p + 1)
      case None => []
      case Some(q) => [Span(p, q)] + Spans(s, q + 1)
  }

  /** Every match is genuine and lies at or after `from`. */
  lemma {:induction false} SpansGenuine(s: string, from: nat)
    requires from <= |s|
    ensures forall j :: 0 <= j < |Spans(s, from)| ==> IsTagSpan(s, Spans(s, from)[j]) && from <= Spans(s, from)[j].open
    decreases |s| - from
  {
    match FindFrom(s, '(', from)
    case None =>
    case Some(p) =>
      match FindFrom(s, ')', p + 1)
      case None =>
      case Some(q) =>
        SpansGenuine(s, q + 1);
        var rest := Spans(s, q + 1);
        assert Spans(s, from) == [Span(p, q)] + rest;
  }

  /** The matches come left to right without overlapping. */
  lemma {:induction false} SpansOrdered(s: string, from: nat)
    requires from <= |s|
    ensures forall j :: 0 < j < |Spans(s, from)| ==> Spans(s, from)[j - 1].close < Spans(s, from)[j].open
    decreases |s| - from
  {
    match FindFrom(s, '(', from)
    case None =>
    case Some(p) =>
      match FindFrom(s, ')', p + 1)
      case None =>
      case Some(q) =>
        SpansOrdered(s, q + 1);
        SpansGenuine(s, q + 1);
        var rest := Spans(s, q + 1);
        var spans := [Span(p, q)] + rest;
        assert Spans(s, from) == spans;
        forall j | 0 < j < |spans|
          ensures spans[j - 1].close < spans[j].open
        {
          if j > 1 {
            assert spans[j - 1] == rest[j - 2] && spans[j] == rest[j - 1];
          }
        }
  }

  /**
   Each match opens at the first `(` left: none lies between `from` and the first match,
   nor between one match's `)` and the next match's `(`.
   */
  lemma {:induction false} SpansLeftmost(s: string, from: nat)
    requires from <= |s|
    ensures |Spans(s, from)| > 0 ==> forall k :: from <= k < |s| && k < Spans(s, from)[0].open ==> s[k] != '('
    ensures forall j :: 0 < j < |Spans(s, from)| ==>
      forall k :: Spans(s, from)[j - 1].close < k < |s| && k < Spans(s, from)[j].open ==> s[k] != '('
    decreases |s| - from
  {
    match FindFrom(s, '(', from)
    case None =>
    case Some(p) =>
      match FindFrom(s, ')', p + 1)
      case None =>
      case Some(q) =>
        SpansLeftmost(s, q + 1);
        var rest := Spans(s, q + 1);
        var spans := [Span(p, q)] + rest;
        assert Spans(s, from) == spans;
        forall j, k | 0 < j < |spans| && spans[j - 1].close < k < |s| && k < spans[j].open
          ensures s[k] != '('
        {
          if j > 1 {
            assert spans[j - 1] == rest[j - 2] && spans[j] == rest[j - 1];
          }
        }
  }

  /** Every `(` from `from` up to the last match's `(` is closed before that `(`. */
  lemma SpansClosed(s: string, from: nat)
    requires from <= |s|
    ensures |Spans(s, from)| > 0 ==> ClosedBetween(s, from, Spans(s, from)[|Spans(s, from)| - 1].open)
  {
    var spans := Spans(s, from);
    if |spans| > 0 {
      var end := spans[|spans| - 1].open;
      forall a | from <= a < end && a < |s| && s[a] == '('
        ensures exists b :: a < b < end && b < |s| && s[b] == ')'
      {
        var b := ClosingBefore(s, from, a);
      }
    }
  }

  /** A `(` at `a`, before the last match's `(`, is closed by a `)` at `b` before it too. */
  lemma {:induction false} ClosingBefore(s: string, from: nat, a: nat) returns (b: nat)
    requires from <= |s| && |Spans(s, from)| > 0
    requires from <= a < |s| && a < Spans(s, from)[|Spans(s, from)| - 1].open && s[a] == '('
    ensures a < b < Spans(s, from)[|Spans(s, from)| - 1].open && b < |s| && s[b] == ')'
    decreases |s| - from
  {
    var spans := Spans(s, from);
    var q := FirstSpan(s, from);
    var rest := Spans(s, q + 1);
    assert spans == [spans[0]] + rest;
    assert spans[|spans| - 1] == rest[|rest| - 1];
    SpansAfter(s, q + 1, |rest| - 1);
    if a < q {
      b := q;
    } else {
      b := ClosingBefore(s, q + 1, a);
    }
  }

  /**
   The first match: nothing but `)`-free text lies between its `(` and its `)` at `q`, no `(`
   comes before it, and the later matches are those from `q + 1` on.
   */
  lemma FirstSpan(s: string, from: nat) returns (q: nat)
    requires from <= |s| && |Spans(s, from)| > 0
    ensures Spans(s, from)[0].close == q < |s| && s[q] == ')'
    ensures forall k :: from <= k < Spans(s, from)[0].open ==> s[k] != '('
    ensures Spans(s, from) == [Spans(s, from)[0]] + Spans(s, q + 1)
  {
    var p := FindFrom(s, '(', from).value;
    q := FindFrom(s, ')', p + 1).value;
    SpansUnfold(s, from, p, q);
  }

  /**
   The `j`th match opens inside `s`, at or after `from`: a one-index view of `SpansGenuine`,
   which keeps that lemma's quantifiers out of `ClosingBefore`'s proof.
   */
  lemma SpansAfter(s: string, from: nat, j: nat)
    requires from <= |s| && j < |Spans(s, from)|
    ensures from <= Spans(s, from)[j].open < |s|
  {
    SpansGenuine(s, from);
  }

  /** Nothing after the last match (or after `from`, when there is none) can match. */
  lemma {:induction false} SpansExhaustive(s: string, from: nat)
    requires from <= |s|
    ensures |Spans(s, from)| == 0 ==> NoTagFrom(s, from)
    ensures |Spans(s, from)| > 0 ==> NoTagFrom(s, Spans(s, from)[|Spans(s, from)| - 1].close + 1)
    decreases |s| - from
  {
    match FindFrom(s, '(', from)
    case None =>
    case Some(p) =>
      match FindFrom(s, ')', p + 1)
      case None =>
      case Some(q) =>
        SpansExhaustive(s, q + 1);
        var rest := Spans(s, q + 1);
        assert Spans(s, from) == [Span(p, q)] + rest;
  }

  /** `end($lengths[0])`: the rightmost match, the one that governs the length. */
  function LastSpan(s: string): (r: Option<Span>)
    ensures r.None? <==> !HasTag(s)
    ensures r.Some? ==> IsTagSpan(s, r.value) && NoTagFrom(s, r.value.close + 1)
    ensures r.Some? ==> ClosedBetween(s, 0, r.value.open)
  {
    var spans := Spans(s, 0);
    SpansGenuine(s, 0);
    SpansExhaustive(s, 0);
    SpansClosed(s, 0);
    if |spans| == 0 then None
    else
      var sp := spans[|spans| - 1];
      assert s[sp.open] == '(' && s[sp.close] == ')';
      Some(sp)
  }

  /** The length a tag's content stands for: `()` is unbounded, otherwise PHP's `(int)` of it. */
  function TagLength(content: string): int
  {
    if content == "" then Unbounded else IntCast(content)
  }

  /**
   The chunk's name and length: without a tag the whole chunk and -1; otherwise the
   text before the last occurrence (`strrpos`) of the last tag, and that tag's length.
   */
  function NameAndLength(chunk: string): (string, int)
  {
    match LastSpan(chunk)
    case None => (chunk, Unbounded)
    case Some(sp) =>
      var tag := chunk[sp.open..sp.close + 1];
      var length := TagLength(chunk[sp.open + 1..sp.close]);
      match LastIndexOf(chunk, tag)
      case Some(pos) => (chunk[..pos], length)
      case None => ("", length)
  }

  /** What one usage chunk declares. */
  datatype Descriptor = ArgumentDescriptor(argument: Argument) | FlagDescriptor(flag: Flag)
  {
    function Length(): int {
      match this
      case ArgumentDescriptor(a) => a.length
      case FlagDescriptor(f) => f.length
    }
  }

  /**
   The classification of lines 43-53, once the chunk's name and length are known: a chunk
   starting with `-` is a flag named by the rest of its name; any other chunk is an
   argument, optional when its name starts with `?`, which is dropped.
   */
  function Classify(chunk: string, name: string, length: int): (d: Descriptor)
    ensures d.FlagDescriptor? <==> StartsWith(chunk, "-")
    ensures d.Length() == length
    ensures d.FlagDescriptor? ==>
      && (|name| > 0 ==> name == [name[0]] + d.flag.name)
      && (|name| == 0 ==> d.flag.name == "")
    ensures d.ArgumentDescriptor? ==>
      && (d.argument.optional <==> StartsWith(name, "?"))
      && name == (if d.argument.optional then "?" else "") + d.argument.name
  {
    StartsWithChar(chunk, '-');
    StartsWithChar(name, '?');
    assert "-" == ['-'] && "?" == ['?'];
    if |chunk| > 0 && chunk[0] == '-' then
      FlagDescriptor(Flag(if |name| > 0 then name[1..] else "", length))
    else if |name| > 0 && name[0] == '?' then
      ArgumentDescriptor(Argument(name[1..], length, true))
    else
      ArgumentDescriptor(Argument(name, length, false))
  }

  /** What one usage chunk declares. */
  function DescribeChunk(chunk: string): (d: Descriptor)
    ensures d.FlagDescriptor? <==> StartsWith(chunk, "-")
    ensures d.Length() != Unbounded ==> HasTag(chunk)
  {
    var (name, length) := NameAndLength(chunk);
    Classify(chunk, name, length)
  }

  function Describe(chunks: seq<string>): (ds: seq<Descriptor>)
    ensures |ds| == |chunks|
    ensures forall i :: 0 <= i < |chunks| ==> ds[i] == DescribeChunk(chunks[i])
  {
    if |chunks| == 0 then []
    else
      var rest := Describe(chunks[1..]);
      assert forall i :: 1 <= i < |chunks| ==> chunks[i] == chunks[1..][i - 1];
      [DescribeChunk(chunks[0])] + rest
  }

  function ArgumentsOf(ds: seq<Descriptor>): seq<Argument>
  {
    if |ds| == 0 then []
    else match ds[0]
      case ArgumentDescriptor(a) => [a] + ArgumentsOf(ds[1..])
      case FlagDescriptor(_) => ArgumentsOf(ds[1..])
  }

  function FlagsOf(ds: seq<Descriptor>): seq<Flag>
  {
    if |ds| == 0 then []
    else match ds[0]
      case ArgumentDescriptor(_) => FlagsOf(ds[1..])
      case FlagDescriptor(f) => [f] + FlagsOf(ds[1..])
  }

  /** Every descriptor lands in exactly one of the two lists. */
  lemma {:induction false} PartitionSizes(ds: seq<Descriptor>)
    ensures |ArgumentsOf(ds)| + |FlagsOf(ds)| == |ds|
  {
    if |ds| > 0 {
      PartitionSizes(ds[1..]);
    }
  }

  /**
   `generateBlueprint`: every space-separated chunk after the command name becomes one
   descriptor; arguments and flags each keep chunk order, and the usage is kept verbatim.
   */
  function GenerateBlueprint(usage: string): (bp: Blueprint)
    ensures bp.usage == usage
    ensures |bp.arguments| + |bp.flags| == |Split(usage, ' ')| - 1
  {
    var ds := Describe(Split(usage, ' ')[1..]);
    PartitionSizes(ds);
    Blueprint(ArgumentsOf(ds), FlagsOf(ds), usage)
  }

  // ---------------------------------------------------------------------------
  // Properties of the builder
  // ---------------------------------------------------------------------------

  /**
   `strrpos` of the last tag's text finds that tag itself: no later copy of the text
   can exist, since it would be a further match or would put a `)` inside the tag.
   */
  lemma LastTagOccurrence(s: string, sp: Span)
    requires IsTagSpan(s, sp) && NoTagFrom(s, sp.close + 1)
    ensures LastIndexOf(s, s[sp.open..sp.close + 1]) == Some(sp.open)
  {
    var tag := s[sp.open..sp.close + 1];
    var len := sp.close - sp.open;
    assert OccursAt(s, tag, sp.open);
    forall j | sp.open < j
      ensures !OccursAt(s, tag, j)
    {
      if j + len < |s| {
        if j > sp.close {
          assert s[j] != tag[0] || s[j + len] != tag[len];
        } else if j == sp.close {
          assert s[j] != tag[0];
        } else {
          var m := sp.close - j;
          assert s[j + m] != tag[m];
        }
      }
    }
  }

  /**
   The name is the chunk text before the `(` of the rightmost tag (earlier groups stay
   in it) and the length comes from that tag alone; with no tag the chunk is the name
   and the length is unbounded.
   */
  lemma NameBeforeLastTag(chunk: string)
    ensures !HasTag(chunk) ==> NameAndLength(chunk) == (chunk, Unbounded)
    ensures LastSpan(chunk).Some? ==>
      var sp := LastSpan(chunk).value;
      NameAndLength(chunk) == (chunk[..sp.open], TagLength(chunk[sp.open + 1..sp.close]))
  {
    if LastSpan(chunk).Some? {
      LastTagOccurrence(chunk, LastSpan(chunk).value);
    }
  }

  /** Every `(` in `s` from `from` on is closed by a `)` before `end`. */
  predicate ClosedBetween(s: string, from: nat, end: nat) {
    forall a :: from <= a < end && a < |s| && s[a] == '(' ==> exists b :: a < b < end && b < |s| && s[b] == ')'
  }

  /** Every `(` in `s` is closed later in `s`: `s` leaves no group open. */
  predicate Closed(s: string) {
    ClosedBetween(s, 0, |s|)
  }

  /**
   The three properties `LastSpan` promises single out its match: any genuine match with
   nothing matchable after it and every earlier `(` closed before it is the last match.
   */
  lemma LastSpanUnique(s: string, sp: Span)
    requires IsTagSpan(s, sp) && NoTagFrom(s, sp.close + 1) && ClosedBetween(s, 0, sp.open)
    ensures LastSpan(s) == Some(sp)
  {
    assert HasTag(s);
    var last := LastSpan(s).value;
    var spans := Spans(s, 0);
    SpansGenuine(s, 0);
    SpansOrdered(s, 0);
    SpansLeftmost(s, 0);
    assert last == spans[|spans| - 1];
  }

  lemma SpansUnfold(s: string, from: nat, a: nat, c: nat)
    requires from <= |s|
    requires FindFrom(s, '(', from) == Some(a)
    requires a + 1 <= |s| && FindFrom(s, ')', a + 1) == Some(c)
    ensures Spans(s, from) == [Span(a, c)] + Spans(s, c + 1)
  {
  }

  /** An earlier `(` that is closed before `p` ends its match before `p`. */
  lemma EarlierTagCloses(s: string, from: nat, a: nat, p: nat) returns (c: nat)
    requires from <= a < p < |s|
    requires ClosedBetween(s, from, p)
    requires FindFrom(s, '(', from) == Some(a)
    ensures a + 1 <= |s| && FindFrom(s, ')', a + 1) == Some(c) && c < p
  {
    var b :| a < b < p && b < |s| && s[b] == ')';
    var r := FindFrom(s, ')', a + 1);
    assert r.Some? && r.value <= b;
    c := r.value;
  }

  /** `p` holds the `(` of a final tag: the chunk ends in `)` and no `)` lies between them. */
  predicate FinalTag(s: string, p: nat) {
    && p < |s| - 1
    && s[p] == '(' && s[|s| - 1] == ')'
    && forall k :: p < k < |s| - 1 ==> s[k] != ')'
  }

  /** The match that starts at the tag `(` runs to the final `)`, and nothing follows it. */
  lemma SpansAtTag(s: string, p: nat, from: nat)
    requires from <= p && FinalTag(s, p)
    requires FindFrom(s, '(', from) == Some(p)
    ensures Spans(s, from) == [Span(p, |s| - 1)]
  {
    assert FindFrom(s, ')', p + 1) == Some(|s| - 1);
    SpansUnfold(s, from, p, |s| - 1);
    assert Spans(s, |s|) == [];
  }

  /** `y` is the last of `t`. */
  predicate EndsWith(t: seq<Span>, y: Span) {
    |t| > 0 && t[|t| - 1] == y
  }

  lemma LastOfCons(x: Span, rest: seq<Span>, y: Span)
    requires EndsWith(rest, y)
    ensures EndsWith([x] + rest, y)
  {
  }

  lemma {:induction false} SpansOfTagged(s: string, p: nat, from: nat)
    requires from <= p && FinalTag(s, p)
    requires ClosedBetween(s, from, p)
    ensures EndsWith(Spans(s, from), Span(p, |s| - 1))
    decreases p - from, 1
  {
    var o := FindFrom(s, '(', from);
    assert o.Some? && o.value <= p;
    if o.value < p {
      SpansBeforeTag(s, p, from, o.value);
    } else {
      SpansAtTag(s, p, from);
    }
  }

  /** A match that starts before the tag `(` closes before it; the tag's match comes later. */
  lemma {:induction false} SpansBeforeTag(s: string, p: nat, from: nat, a: nat)
    requires from <= a < p && FinalTag(s, p)
    requires FindFrom(s, '(', from) == Some(a)
    requires ClosedBetween(s, from, p)
    ensures EndsWith(Spans(s, from), Span(p, |s| - 1))
    decreases p - from, 0
  {
    var c := EarlierTagCloses(s, from, a, p);
    SpansUnfold(s, from, a, c);
    ClosedLater(s, from, c + 1, p);
    SpansOfTagged(s, p, c + 1);
    LastOfCons(Span(a, c), Spans(s, c + 1), Span(p, |s| - 1));
  }

  lemma ClosedLater(s: string, from: nat, later: nat, end: nat)
    requires from <= later && ClosedBetween(s, from, end)
    ensures ClosedBetween(s, later, end)
  {
  }

  lemma TaggedChunkShape(prefix: string, content: string)
    requires Closed(prefix)
    requires ')' !in content
    ensures ClosedBetween(prefix + "(" + content + ")", 0, |prefix|)
    ensures FinalTag(prefix + "(" + content + ")", |prefix|)
  {
    var s := prefix + "(" + content + ")";
    var p := |prefix|;
    forall a | 0 <= a < p && s[a] == '('
      ensures exists b :: a < b < p && b < |s| && s[b] == ')'
    {
      assert prefix[a] == '(';
      var b :| a < b < p && prefix[b] == ')';
      assert s[b] == ')';
    }
    forall k | p < k < |s| - 1
      ensures s[k] != ')'
    {
      assert s[k] == content[k - p - 1];
    }
  }

  /**
   A chunk written as `prefix(content)` with no group left open in `prefix` and no `)`
   in `content` has `prefix` as its name and `content` as its length tag, whatever
   complete groups `prefix` itself holds.
   */
  lemma TaggedChunk(s: string, prefix: string, content: string)
    requires s == prefix + "(" + content + ")"
    requires Closed(prefix)
    requires ')' !in content
    ensures NameAndLength(s) == (prefix, TagLength(content))
  {
    TaggedChunkSpan(s, prefix, content);
    NameBeforeLastTag(s);
    SliceParts(prefix, "(", content, ")");
  }

  /** The last match of a tagged chunk is its final `(...)`. */
  lemma TaggedChunkSpan(s: string, prefix: string, content: string)
    requires s == prefix + "(" + content + ")"
    requires Closed(prefix)
    requires ')' !in content
    ensures LastSpan(s) == Some(Span(|prefix|, |s| - 1))
  {
    TaggedChunkShape(prefix, content);
    SpansOfTagged(s, |prefix|, 0);
  }

  /** A chunk with no parenthesised group has length -1 and the whole chunk as its name. */
  lemma UntaggedChunk(chunk: string)
    requires !HasTag(chunk)
    ensures DescribeChunk(chunk).Length() == Unbounded
    ensures StartsWith(chunk, "-") ==> DescribeChunk(chunk) == FlagDescriptor(Flag(chunk[1..], Unbounded))
    ensures !StartsWith(chunk, "-") && StartsWith(chunk, "?") ==>
              DescribeChunk(chunk) == ArgumentDescriptor(Argument(chunk[1..], Unbounded, true))
    ensures !StartsWith(chunk, "-") && !StartsWith(chunk, "?") ==>
              DescribeChunk(chunk) == ArgumentDescriptor(Argument(chunk, Unbounded, false))
  {
    NameBeforeLastTag(chunk);
  }

  // ---------------------------------------------------------------------------
  // Rendering a blueprint back to a usage string
  // ---------------------------------------------------------------------------

  /** The tag for a length: `()` for unbounded, `(n)` otherwise. */
  function RenderLength(length: int): string
  {
    if length < 0 then "()" else "(" + Digits(length) + ")"
  }

  function RenderArgument(a: Argument): string
  {
    (if a.optional then "?" else "") + a.name + RenderLength(a.length)
  }

  function RenderFlag(f: Flag): string
  {
    "-" + f.name + RenderLength(f.length)
  }

  function RenderArguments(args: seq<Argument>): (chunks: seq<string>)
    ensures |chunks| == |args|
    ensures forall i :: 0 <= i < |args| ==> chunks[i] == RenderArgument(args[i])
  {
    if |args| == 0 then [] else [RenderArgument(args[0])] + RenderArguments(args[1..])
  }

  function RenderFlags(flags: seq<Flag>): (chunks: seq<string>)
    ensures |chunks| == |flags|
    ensures forall i :: 0 <= i < |flags| ==> chunks[i] == RenderFlag(flags[i])
  {
    if |flags| == 0 then [] else [RenderFlag(flags[0])] + RenderFlags(flags[1..])
  }

  /** The usage string that declares `args` and then `flags` after `command`. */
  function RenderUsage(command: string, args: seq<Argument>, flags: seq<Flag>): string
  {
    Join([command] + (RenderArguments(args) + RenderFlags(flags)), ' ')
  }

  /** A name with no space and no parentheses. */
  predicate PlainName(name: string) {
    ' ' !in name && '(' !in name && ')' !in name
  }

  predicate RenderableLength(length: int) {
    Unbounded <= length <= MaxInt64
  }

  /** An argument that reads back as itself: a plain name that cannot pass for a flag or a `?` marker. */
  predicate RenderableArgument(a: Argument) {
    && PlainName(a.name)
    && RenderableLength(a.length)
    && (!a.optional ==> !StartsWith(a.name, "-") && !StartsWith(a.name, "?"))
  }

  predicate RenderableFlag(f: Flag) {
    PlainName(f.name) && RenderableLength(f.length)
  }

  lemma PlainNameClosed(s: string)
    requires forall k :: 0 <= k < |s| ==> s[k] != '(' 
    ensures Closed(s)
  {
  }

  lemma RenderLengthTag(length: int)
    requires RenderableLength(length)
    ensures RenderLength(length) == "(" + (if length < 0 then "" else Digits(length)) + ")"
    ensures ')' !in (if length < 0 then "" else Digits(length))
    ensures TagLength(if length < 0 then "" else Digits(length)) == length
  {
    if length >= 0 {
      var ds := Digits(length);
      IntCastDigits(length);
      forall k | 0 <= k < |ds|
        ensures ds[k] != ')'
      {
        assert IsDigit(ds[k]);
      }
    }
  }

  /** A rendered chunk has no space: names are plain, tags hold digits. */
  lemma RenderedChunkHasNoSpace(marker: string, name: string, length: int)
    requires ' ' !in marker && ' ' !in name && RenderableLength(length)
    ensures ' ' !in marker + name + RenderLength(length)
  {
    var prefix := marker + name;
    var tail := RenderLength(length);
    forall k | 0 <= k < |tail|
      ensures tail[k] != ' '
    {
      if length >= 0 && 0 < k < |tail| - 1 {
        assert tail[k] == Digits(length)[k - 1];
        assert IsDigit(Digits(length)[k - 1]);
      }
    }
    forall k | 0 <= k < |prefix|
      ensures prefix[k] != ' '
    {
      if k < |marker| {
        assert prefix[k] == marker[k];
        assert marker[k] in marker;
      } else {
        assert prefix[k] == name[k - |marker|];
        assert name[k - |marker|] in name;
      }
    }
    assert ' ' !in prefix;
    assert ' ' !in tail;
  }

  /** The rendered chunk is `marker name` followed by a tag holding only digits. */
  lemma RenderedShape(marker: string, name: string, length: int)
    requires PlainName(name) && '(' !in marker && RenderableLength(length)
    ensures var content := if length < 0 then "" else Digits(length);
      && marker + name + RenderLength(length) == (marker + name) + "(" + content + ")"
      && ')' !in content
      && TagLength(content) == length
      && forall k :: 0 <= k < |marker + name| ==> (marker + name)[k] != '('
  {
    var content := if length < 0 then "" else Digits(length);
    RenderLengthTag(length);
    Regroup(marker + name, "(", content, ")");
    NoOpenInPrefix(marker, name);
  }

  lemma NoOpenInPrefix(marker: string, name: string)
    requires PlainName(name) && '(' !in marker
    ensures forall k :: 0 <= k < |marker + name| ==> (marker + name)[k] != '('
  {
    var prefix := marker + name;
    forall k | 0 <= k < |prefix|
      ensures prefix[k] != '('
    {
      if k < |marker| {
        assert marker[k] in marker;
      } else {
        assert name[k - |marker|] in name;
      }
    }
  }

  /** The rendered chunk `marker name (tag)` reads back as `marker name` with the rendered length. */
  lemma RenderedNameAndLength(marker: string, name: string, length: int)
    requires PlainName(name) && '(' !in marker && RenderableLength(length)
    ensures NameAndLength(marker + name + RenderLength(length)) == (marker + name, length)
  {
    var prefix := marker + name;
    var content := if length < 0 then "" else Digits(length);
    RenderedShape(marker, name, length);
    PlainNameClosed(prefix);
    TaggedChunk(marker + name + RenderLength(length), prefix, content);
  }

  /** How a chunk is classified once its name and length are known. */
  lemma DescribeByName(chunk: string, name: string, length: int)
    requires NameAndLength(chunk) == (name, length)
    ensures StartsWith(chunk, "-") ==>
              DescribeChunk(chunk) == FlagDescriptor(Flag(if |name| > 0 then name[1..] else "", length))
    ensures !StartsWith(chunk, "-") && StartsWith(name, "?") ==>
              DescribeChunk(chunk) == ArgumentDescriptor(Argument(name[1..], length, true))
    ensures !StartsWith(chunk, "-") && !StartsWith(name, "?") ==>
              DescribeChunk(chunk) == ArgumentDescriptor(Argument(name, length, false))
  {
    StartsWithChar(chunk, '-');
    StartsWithChar(name, '?');
    assert "-" == ['-'] && "?" == ['?'];
  }

  /**
   A tagged chunk, read off the chunk itself: the text before its last tag is the name,
   less a leading `-` (a flag) or a leading `?` (an optional argument), and the tag's
   content is the length. A leading `-` or `?` is never the tag's `(`, so it is always
   part of the name.
   */
  lemma DescribeTagged(chunk: string)
    requires HasTag(chunk)
    ensures var sp := LastSpan(chunk).value;
      var length := TagLength(chunk[sp.open + 1..sp.close]);
      && (StartsWith(chunk, "-") ==>
            0 < sp.open && DescribeChunk(chunk) == FlagDescriptor(Flag(chunk[1..sp.open], length)))
      && (StartsWith(chunk, "?") ==>
            0 < sp.open && DescribeChunk(chunk) == ArgumentDescriptor(Argument(chunk[1..sp.open], length, true)))
      && (!StartsWith(chunk, "-") && !StartsWith(chunk, "?") ==>
            DescribeChunk(chunk) == ArgumentDescriptor(Argument(chunk[..sp.open], length, false)))
  {
    var sp := LastSpan(chunk).value;
    NameBeforeLastTag(chunk);
    var name := chunk[..sp.open];
    StartsWithChar(chunk, '-');
    StartsWithChar(chunk, '?');
    StartsWithChar(name, '?');
    assert "-" == ['-'] && "?" == ['?'];
    if sp.open > 0 {
      assert name[0] == chunk[0] && name[1..] == chunk[1..sp.open];
    }
  }

  lemma DescribeRenderedArgument(a: Argument)
    requires RenderableArgument(a)
    ensures DescribeChunk(RenderArgument(a)) == ArgumentDescriptor(a)
  {
    if a.optional {
      DescribeOptional(RenderArgument(a), a.name, a.length);
    } else {
      DescribeRequired(RenderArgument(a), a.name, a.length);
    }
  }

  lemma DescribeOptional(chunk: string, name: string, length: int)
    requires PlainName(name) && RenderableLength(length)
    requires chunk == "?" + name + RenderLength(length)
    ensures DescribeChunk(chunk) == ArgumentDescriptor(Argument(name, length, true))
  {
    RenderedNameAndLength("?", name, length);
    DescribeByName(chunk, "?" + name, length);
    assert chunk[0] == '?';
    assert ("?" + name)[1..] == name;
  }

  lemma DescribeRequired(chunk: string, name: string, length: int)
    requires PlainName(name) && RenderableLength(length)
    requires !StartsWith(name, "-") && !StartsWith(name, "?")
    requires chunk == "" + name + RenderLength(length)
    ensures DescribeChunk(chunk) == ArgumentDescriptor(Argument(name, length, false))
  {
    RenderedNameAndLength("", name, length);
    assert "" + name == name;
    DescribeByName(chunk, name, length);
    if |name| == 0 {
      assert chunk[0] == '(';
    } else {
      assert chunk[0] == name[0];
    }
  }

  lemma DescribeRenderedFlag(f: Flag)
    requires RenderableFlag(f)
    ensures DescribeChunk(RenderFlag(f)) == FlagDescriptor(f)
  {
    var prefix := "-" + f.name;
    var chunk := RenderFlag(f);
    RenderedNameAndLength("-", f.name, f.length);
    DescribeByName(chunk, prefix, f.length);
    assert chunk == prefix + RenderLength(f.length);
    assert chunk[0] == '-';
    assert prefix[1..] == f.name;
  }

  lemma {:induction false} ArgumentsOfAppend(a: seq<Descriptor>, b: seq<Descriptor>)
    ensures ArgumentsOf(a + b) == ArgumentsOf(a) + ArgumentsOf(b)
  {
    if |a| == 0 {
      assert a + b == b;
    } else {
      ArgumentsOfAppend(a[1..], b);
      ArgumentsOfAppendStep(a, b);
    }
  }

  lemma ArgumentsOfAppendStep(a: seq<Descriptor>, b: seq<Descriptor>)
    requires |a| > 0 && ArgumentsOf(a[1..] + b) == ArgumentsOf(a[1..]) + ArgumentsOf(b)
    ensures ArgumentsOf(a + b) == ArgumentsOf(a) + ArgumentsOf(b)
  {
    var ab := a + b;
    assert ab[0] == a[0] && ab[1..] == a[1..] + b;
    var x, y := ArgumentsOf(a[1..]), ArgumentsOf(b);
    if a[0].ArgumentDescriptor? {
      var h := [a[0].argument];
      assert ArgumentsOf(a) == h + x;
      assert ArgumentsOf(ab) == h + (x + y);
      ConcatAssoc(h, x, y);
    } else {
      assert ArgumentsOf(a) == x;
      assert ArgumentsOf(ab) == x + y;
    }
  }

  lemma {:induction false} FlagsOfAppend(a: seq<Descriptor>, b: seq<Descriptor>)
    ensures FlagsOf(a + b) == FlagsOf(a) + FlagsOf(b)
  {
    if |a| == 0 {
      assert a + b == b;
    } else {
      FlagsOfAppend(a[1..], b);
      FlagsOfAppendStep(a, b);
    }
  }

  lemma FlagsOfAppendStep(a: seq<Descriptor>, b: seq<Descriptor>)
    requires |a| > 0 && FlagsOf(a[1..] + b) == FlagsOf(a[1..]) + FlagsOf(b)
    ensures FlagsOf(a + b) == FlagsOf(a) + FlagsOf(b)
  {
    var ab := a + b;
    assert ab[0] == a[0] && ab[1..] == a[1..] + b;
    var x, y := FlagsOf(a[1..]), FlagsOf(b);
    if a[0].FlagDescriptor? {
      var h := [a[0].flag];
      assert FlagsOf(a) == h + x;
      assert FlagsOf(ab) == h + (x + y);
      ConcatAssoc(h, x, y);
    } else {
      assert FlagsOf(a) == x;
      assert FlagsOf(ab) == x + y;
    }
  }

  lemma {:induction false} DescribeRenderedArguments(args: seq<Argument>)
    requires forall i :: 0 <= i < |args| ==> RenderableArgument(args[i])
    ensures ArgumentsOf(Describe(RenderArguments(args))) == args
    ensures FlagsOf(Describe(RenderArguments(args))) == []
  {
    if |args| > 0 {
      DescribeRenderedArgument(args[0]);
      DescribeRenderedArguments(args[1..]);
      var ds := Describe(RenderArguments(args));
      assert ds[1..] == Describe(RenderArguments(args[1..]));
      assert [args[0]] + args[1..] == args;
    }
  }

  lemma {:induction false} DescribeRenderedFlags(flags: seq<Flag>)
    requires forall i :: 0 <= i < |flags| ==> RenderableFlag(flags[i])
    ensures ArgumentsOf(Describe(RenderFlags(flags))) == []
    ensures FlagsOf(Describe(RenderFlags(flags))) == flags
  {
    if |flags| > 0 {
      DescribeRenderedFlag(flags[0]);
      DescribeRenderedFlags(flags[1..]);
      var ds := Describe(RenderFlags(flags));
      assert ds[1..] == Describe(RenderFlags(flags[1..]));
      assert [flags[0]] + flags[1..] == flags;
    }
  }

  lemma DescribeAppend(a: seq<string>, b: seq<string>)
    ensures Describe(a + b) == Describe(a) + Describe(b)
  {
    var l := Describe(a + b);
    var r := Describe(a) + Describe(b);
    forall i | 0 <= i < |l|
      ensures l[i] == r[i]
    {
      if i < |a| {
        assert (a + b)[i] == a[i];
      } else {
        assert (a + b)[i] == b[i - |a|];
      }
    }
  }

  /** No chunk contains a space. */
  predicate SpaceFree(chunks: seq<string>) {
    forall i :: 0 <= i < |chunks| ==> ' ' !in chunks[i]
  }

  lemma SpaceFreeAppend(a: seq<string>, b: seq<string>)
    requires SpaceFree(a) && SpaceFree(b)
    ensures SpaceFree(a + b)
  {
    forall i | 0 <= i < |a + b|
      ensures ' ' !in (a + b)[i]
    {
      if i < |a| {
        assert (a + b)[i] == a[i];
      } else {
        assert (a + b)[i] == b[i - |a|];
      }
    }
  }

  /** The chunks of a rendered usage string are the command and the rendered declarations. */
  lemma SplitRendered(command: string, args: seq<Argument>, flags: seq<Flag>)
    requires ' ' !in command
    requires forall i :: 0 <= i < |args| ==> RenderableArgument(args[i])
    requires forall i :: 0 <= i < |flags| ==> RenderableFlag(flags[i])
    ensures Split(RenderUsage(command, args, flags), ' ') == [command] + (RenderArguments(args) + RenderFlags(flags))
  {
    var argChunks := RenderArguments(args);
    var flagChunks := RenderFlags(flags);
    var tail := argChunks + flagChunks;
    var chunks := [command] + tail;
    forall i | 0 <= i < |args|
      ensures ' ' !in argChunks[i]
    {
      RenderedChunkHasNoSpace(if args[i].optional then "?" else "", args[i].name, args[i].length);
    }
    forall i | 0 <= i < |flags|
      ensures ' ' !in flagChunks[i]
    {
      RenderedChunkHasNoSpace("-", flags[i].name, flags[i].length);
    }
    assert SpaceFree(argChunks) && SpaceFree(flagChunks);
    SpaceFreeAppend(argChunks, flagChunks);
    assert SpaceFree([command]);
    SpaceFreeAppend([command], tail);
    SplitJoin(chunks, ' ');
  }

  /**
   Round trip: building a blueprint from the usage string that renders a command's
   arguments and flags gives back exactly those arguments and flags, in order, and
   keeps the usage string.
   */
  lemma GenerateRendered(command: string, args: seq<Argument>, flags: seq<Flag>)
    requires ' ' !in command
    requires forall i :: 0 <= i < |args| ==> RenderableArgument(args[i])
    requires forall i :: 0 <= i < |flags| ==> RenderableFlag(flags[i])
    ensures GenerateBlueprint(RenderUsage(command, args, flags))
            == Blueprint(args, flags, RenderUsage(command, args, flags))
  {
    var usage := RenderUsage(command, args, flags);
    var argChunks := RenderArguments(args);
    var flagChunks := RenderFlags(flags);
    SplitRendered(command, args, flags);
    DescribeRenderedArguments(args);
    DescribeRenderedFlags(flags);
    DescribeAppend(argChunks, flagChunks);
    ArgumentsOfAppend(Describe(argChunks), Describe(flagChunks));
    FlagsOfAppend(Describe(argChunks), Describe(flagChunks));
    GenerateFromChunks(usage, argChunks + flagChunks);
  }

  lemma GenerateFromChunks(usage: string, tail: seq<string>)
    requires |Split(usage, ' ')| >= 1 && Split(usage, ' ')[1..] == tail
    ensures GenerateBlueprint(usage) == Blueprint(ArgumentsOf(Describe(tail)), FlagsOf(Describe(tail)), usage)
  {
  }

  /** Every character of a chunk of `explode` comes from the exploded string. */
  lemma {:induction false} SplitChars(s: string, sep: char)
    ensures forall i, k :: 0 <= i < |Split(s, sep)| && 0 <= k < |Split(s, sep)[i]| ==> Split(s, sep)[i][k] in s
    decreases |s|
  {
    if |s| > 0 {
      SplitChars(s[1..], sep);
      var rest := Split(s[1..], sep);
      forall c | c in s[1..]
        ensures c in s
      {
        var k :| 0 <= k < |s[1..]| && s[1..][k] == c;
        assert s[k + 1] == c;
      }
    }
  }

  /** A usage string with no `(` declares only unbounded arguments and flags. */
  lemma UntaggedUsage(usage: string)
    requires '(' !in usage
    ensures forall a :: a in GenerateBlueprint(usage).arguments ==> a.length == Unbounded
    ensures forall f :: f in GenerateBlueprint(usage).flags ==> f.length == Unbounded
  {
    var chunks := Split(usage, ' ')[1..];
    var ds := Describe(chunks);
    SplitChars(usage, ' ');
    forall i | 0 <= i < |ds|
      ensures ds[i].Length() == Unbounded
    {
      var chunk := chunks[i];
      assert chunk == Split(usage, ' ')[i + 1];
      forall a | 0 <= a < |chunk|
        ensures chunk[a] != '('
      {
        assert chunk[a] in usage;
      }
      UntaggedChunk(chunk);
    }
    UnboundedParts(ds);
  }

  lemma {:induction false} UnboundedParts(ds: seq<Descriptor>)
    requires forall i :: 0 <= i < |ds| ==> ds[i].Length() == Unbounded
    ensures forall a :: a in ArgumentsOf(ds) ==> a.length == Unbounded
    ensures forall f :: f in FlagsOf(ds) ==> f.length == Unbounded
  {
    if |ds| > 0 {
      UnboundedParts(ds[1..]);
    }
  }

  // ---------------------------------------------------------------------------
  // The builder as written, for a chunk without a length tag
  // ---------------------------------------------------------------------------

  /**
   A chunk the code as written throws on: it has no length tag, and no NUL character for
   `strrpos`'s `false` needle to find.
   */
  predicate ThrowsAsWritten(chunk: string) {
    !HasTag(chunk) && '\0' !in chunk
  }

  /**
   Lines 20-41 as written, under PHP 7 (the `$name{0}` at line 47 does not parse on PHP 8).
   `preg_match_all` in pattern order fills one list per group, so `$lengths` is `[[], []]`
   when nothing matches, never `[[]]`, and the tag branch runs for every chunk. Without a
   match `end` gives `false` for the tag and for its content, and the length becomes
   `(int) false`, i.e. 0. `strrpos` takes its needle untyped and reads `false` as the
   character NUL; when the chunk holds none it returns `false`, and `substr` at line 40
   then receives `false` as its length, which the file's strict types turn into a
   TypeError (`None`). When the chunk does hold a NUL, the name is the text before the last one.
   */
  function NameAndLengthAsWritten(chunk: string): (r: Option<(string, int)>)
    ensures r.None? <==> ThrowsAsWritten(chunk)
    ensures HasTag(chunk) ==> r == Some(NameAndLength(chunk))
    ensures !HasTag(chunk) && r.Some? ==>
      var p := |r.value.0|;
      && p < |chunk| && chunk[p] == '\0' && '\0' !in chunk[p + 1..]
      && r.value == (chunk[..p], 0)
  {
    match LastSpan(chunk)
    case None =>
      LastIndexOfChar(chunk, '\0');
      (match LastIndexOf(chunk, ['\0'])
       case None => None
       case Some(pos) => Some((chunk[..pos], 0)))
    case Some(sp) =>
      var tag := chunk[sp.open..sp.close + 1];
      var content := chunk[sp.open + 1..sp.close];
      var length := if content != "" then IntCast(content) else Unbounded;
      LastTagOccurrence(chunk, sp);
      NameBeforeLastTag(chunk);
      match LastIndexOf(chunk, tag)
      case Some(pos) => Some((chunk[..pos], length))
      case None => None
  }

  /** The chunk loop of lines 16-54 as written, or `None` where it throws. */
  function DescribeAsWritten(chunks: seq<string>): (r: Option<seq<Descriptor>>)
    ensures r.None? <==> exists i :: 0 <= i < |chunks| && ThrowsAsWritten(chunks[i])
    ensures r.Some? ==> |r.value| == |chunks|
    ensures r.Some? ==> forall i :: 0 <= i < |chunks| ==>
      && (r.value[i].FlagDescriptor? <==> StartsWith(chunks[i], "-"))
      && (HasTag(chunks[i]) ==> r.value[i] == DescribeChunk(chunks[i]))
      && (!HasTag(chunks[i]) ==> r.value[i].Length() == 0)
      && (!HasTag(chunks[i]) ==> r.value[i] == Classify(chunks[i], NameAndLengthAsWritten(chunks[i]).value.0, 0))
  {
    if |chunks| == 0 then Some([])
    else
      var rest := DescribeAsWritten(chunks[1..]);
      ShiftExists(chunks);
      match NameAndLengthAsWritten(chunks[0])
      case None => None
      case Some((name, length)) =>
        if rest.None? then None
        else
          var d := Classify(chunks[0], name, length);
          var ds := [d] + rest.value;
          assert forall i :: 1 <= i < |chunks| ==> ds[i] == rest.value[i - 1] && chunks[i] == chunks[1..][i - 1];
          Some(ds)
  }

  /** Shifting an index by one between `chunks` and `chunks[1..]`, for `ThrowsAsWritten`. */
  lemma ShiftExists(chunks: seq<string>)
    requires |chunks| > 0
    ensures (exists i :: 0 <= i < |chunks| && ThrowsAsWritten(chunks[i])) <==>
      ThrowsAsWritten(chunks[0]) || exists i :: 0 <= i < |chunks[1..]| && ThrowsAsWritten(chunks[1..][i])
  {
    if i :| 0 <= i < |chunks| && ThrowsAsWritten(chunks[i]) {
      if i > 0 {
        assert chunks[1..][i - 1] == chunks[i];
      }
    }
    if i :| 0 <= i < |chunks[1..]| && ThrowsAsWritten(chunks[1..][i]) {
      assert chunks[i + 1] == chunks[1..][i];
    }
  }

  /** With every chunk tagged, the loop as written builds exactly the intended descriptors. */
  lemma DescribeAsWrittenTagged(chunks: seq<string>)
    requires forall i :: 0 <= i < |chunks| ==> HasTag(chunks[i])
    ensures DescribeAsWritten(chunks) == Some(Describe(chunks))
  {
    var r := DescribeAsWritten(chunks);
    assert r.Some?;
    var ds := Describe(chunks);
    assert r.value == ds;
  }

  /**
   `generateBlueprint` as written: it throws exactly when a chunk after the command name
   has neither a length tag nor a NUL, and it agrees with `GenerateBlueprint` whenever
   every such chunk is tagged.
   */
  function GenerateBlueprintAsWritten(usage: string): (r: Option<Blueprint>)
    ensures r.None? <==> exists i :: 1 <= i < |Split(usage, ' ')| && ThrowsAsWritten(Split(usage, ' ')[i])
    ensures r.Some? ==> r.value.usage == usage && |r.value.arguments| + |r.value.flags| == |Split(usage, ' ')| - 1
    ensures (forall i :: 1 <= i < |Split(usage, ' ')| ==> HasTag(Split(usage, ' ')[i])) ==>
      r == Some(GenerateBlueprint(usage))
  {
    var chunks := Split(usage, ' ');
    ShiftExists(chunks);
    TaggedTail(chunks);
    match DescribeAsWritten(chunks[1..])
    case None => None
    case Some(ds) =>
      PartitionSizes(ds);
      Some(Blueprint(ArgumentsOf(ds), FlagsOf(ds), usage))
  }

  /** When every chunk after the first is tagged, the loop as written builds `Describe`'s result. */
  lemma TaggedTail(chunks: seq<string>)
    requires |chunks| > 0
    ensures (forall i :: 1 <= i < |chunks| ==> HasTag(chunks[i])) ==>
      DescribeAsWritten(chunks[1..]) == Some(Describe(chunks[1..]))
  {
    var tail := chunks[1..];
    if forall i :: 1 <= i < |chunks| ==> HasTag(chunks[i]) {
      forall i | 0 <= i < |tail|
        ensures HasTag(tail[i])
      {
        assert tail[i] == chunks[i + 1];
      }
      DescribeAsWrittenTagged(tail);
    }
  }

  /**
   The discrepancy on a chunk without a tag or a NUL: the code as written throws, where
   the comments at lines 23-27 intend the whole chunk as the name and an unbounded length.
   */
  lemma UntaggedChunkThrows(chunk: string)
    requires ThrowsAsWritten(chunk)
    ensures NameAndLengthAsWritten(chunk) == None
    ensures NameAndLength(chunk) == (chunk, Unbounded)
  {
    NameBeforeLastTag(chunk);
  }

  /**
   The discrepancy on a chunk without a tag but with a NUL: the code as written takes the
   text before the last NUL as the name and length 0, where the intended reading is the
   whole chunk and an unbounded length.
   */
  lemma UntaggedNulChunk(chunk: string)
    requires !HasTag(chunk) && '\0' in chunk
    ensures NameAndLengthAsWritten(chunk).Some? && NameAndLengthAsWritten(chunk).value.1 == 0
    ensures |NameAndLengthAsWritten(chunk).value.0| < |chunk|
    ensures NameAndLength(chunk) == (chunk, Unbounded)
  {
    NameBeforeLastTag(chunk);
  }
}

=== FILE: duration.dfy ===
/**
 The phrase-building half of `parseDuration`: a compact duration such as `1d12h` is
 cut at the first occurrence of each unit symbol, in the fixed order y, M, w, d, h, m,
 and every cut becomes "count unit" in a phrase for `strtotime`.

 The cutting loop is stated over any table of symbols; the source's table is `Symbols`.
 */
module Durations {
  import opened Wrappers
  import opened Strings
  import opened PhpInt

  /** The unit symbols, in the order the source tries them (`M` is month, `m` minute). */
  const Symbols: string := "yMwdhm"

  /** The word each symbol stands for, in the singular. */
  const UnitWords: seq<string> := ["year", "month", "week", "day", "hour", "minute"]

  /** One cut: the text before a unit's symbol, and the unit's position in the table. */
  datatype Piece = Piece(count: string, unit: nat)

  /** The outcome of `parseDuration`: the current time, or a phrase handed to `strtotime`. */
  datatype Resolution = Now | Relative(phrase: string)

  /**
   The loop over the units from `u` on: a unit whose symbol is present takes everything
   before the symbol's first occurrence as its count, and the symbol goes with it.
   */
  function Cut(parts: string, table: string, u: nat): (ps: seq<Piece>)
    requires u <= |table|
    decreases |table| - u
  {
    if u == |table| then []
    else match IndexOf(parts, table[u])
      case None => Cut(parts, table, u + 1)
      case Some(len) => [Piece(parts[..len], u)] + Cut(parts[len + 1..], table, u + 1)
  }

  /** The pieces of a duration under the source's table. */
  function Pieces(duration: string): seq<Piece>
  {
    Cut(duration, Symbols, 0)
  }

  /** The compact text pieces are cut from: each count followed by its unit's symbol. */
  function Compact(ps: seq<Piece>, table: string): string
  {
    if |ps| == 0 then ""
    else
      var sym := if ps[0].unit < |table| then [table[ps[0].unit]] else "";
      ps[0].count + sym + Compact(ps[1..], table)
  }

  /** The unit word for a piece. */
  function Word(p: Piece): string
  {
    if p.unit < |UnitWords| then UnitWords[p.unit] else ""
  }

  /** The loop's accumulator: "count unit " for every piece, in order. */
  function PhraseOf(ps: seq<Piece>): string
  {
    if |ps| == 0 then "" else ps[0].count + " " + Word(ps[0]) + " " + PhraseOf(ps[1..])
  }

  /** The trimmed phrase for a duration string. */
  function DurationPhrase(duration: string): string
  {
    Trim(PhraseOf(Pieces(duration)))
  }

  /** `parseDuration` up to its last line: an empty phrase means now. */
  function ParseDuration(duration: string): Resolution
  {
    var phrase := DurationPhrase(duration);
    if phrase == "" then Now else Relative(phrase)
  }

  // ---------------------------------------------------------------------------
  // The cutting loop
  // ---------------------------------------------------------------------------

  lemma CutFound(parts: string, table: string, u: nat, len: nat)
    requires u < |table| && IndexOf(parts, table[u]) == Some(len)
    ensures Cut(parts, table, u) == [Piece(parts[..len], u)] + Cut(parts[len + 1..], table, u + 1)
  {
  }

  lemma CutMissing(parts: string, table: string, u: nat)
    requires u < |table| && IndexOf(parts, table[u]) == None
    ensures Cut(parts, table, u) == Cut(parts, table, u + 1)
  {
  }

  lemma CompactCons(p: Piece, ps: seq<Piece>, table: string)
    requires p.unit < |table|
    ensures Compact([p] + ps, table) == p.count + [table[p.unit]] + Compact(ps, table)
  {
    assert ([p] + ps)[1..] == ps;
  }

  /** The units of `ps` lie in `[lo, hi)` and strictly increase. */
  predicate UnitsAscend(ps: seq<Piece>, lo: nat, hi: nat) {
    && (forall i :: 0 <= i < |ps| ==> lo <= ps[i].unit < hi)
    && (forall i, j :: 0 <= i < j < |ps| ==> ps[i].unit < ps[j].unit)
  }

  /** The units of the pieces lie between `u` and the end of the table, strictly increasing. */
  lemma {:induction false} CutUnits(parts: string, table: string, u: nat)
    requires u <= |table|
    ensures UnitsAscend(Cut(parts, table, u), u, |table|)
    decreases |table| - u
  {
    if u < |table| {
      match IndexOf(parts, table[u])
      case None =>
        CutMissing(parts, table, u);
        CutUnits(parts, table, u + 1);
        AscendWiden(Cut(parts, table, u + 1), u, |table|);
      case Some(len) =>
        CutFound(parts, table, u, len);
        CutUnits(parts[len + 1..], table, u + 1);
        AscendCons(Piece(parts[..len], u), Cut(parts[len + 1..], table, u + 1), |table|);
    }
  }

  lemma AscendWiden(ps: seq<Piece>, lo: nat, hi: nat)
    requires UnitsAscend(ps, lo + 1, hi)
    ensures UnitsAscend(ps, lo, hi)
  {
  }

  lemma AscendCons(x: Piece, rest: seq<Piece>, hi: nat)
    requires x.unit < hi && UnitsAscend(rest, x.unit + 1, hi)
    ensures UnitsAscend([x] + rest, x.unit, hi)
  {
    var ps := [x] + rest;
    forall i | 0 < i < |ps|
      ensures ps[i] == rest[i - 1]
    {
    }
  }

  /** The pieces consume a prefix of the text: each count is followed by its symbol. */
  lemma {:induction false} CutConsumesPrefix(parts: string, table: string, u: nat)
    requires u <= |table|
    ensures Compact(Cut(parts, table, u), table) <= parts
    decreases |table| - u
  {
    if u < |table| {
      match IndexOf(parts, table[u])
      case None =>
        CutMissing(parts, table, u);
        CutConsumesPrefix(parts, table, u + 1);
      case Some(len) =>
        CutConsumesPrefix(parts[len + 1..], table, u + 1);
        CutConsumesFound(parts, table, u, len);
    }
  }

  /** The step that takes a piece: its count and symbol are the text up to the cut. */
  lemma CutConsumesFound(parts: string, table: string, u: nat, len: nat)
    requires u < |table| && IndexOf(parts, table[u]) == Some(len)
    requires Compact(Cut(parts[len + 1..], table, u + 1), table) <= parts[len + 1..]
    ensures Compact(Cut(parts, table, u), table) <= parts
  {
    var tail := parts[len + 1..];
    var rest := Cut(tail, table, u + 1);
    CutFound(parts, table, u, len);
    CompactCons(Piece(parts[..len], u), rest, table);
    var head := parts[..len] + [table[u]];
    SplitAround(parts, len);
    PrefixExtend(head, Compact(rest, table), tail);
  }

  /** No count holds its own unit's symbol: the cut is at the symbol's first occurrence. */
  lemma {:induction false} CutAtFirst(parts: string, table: string, u: nat, i: nat)
    requires u <= |table| && i < |Cut(parts, table, u)|
    ensures Cut(parts, table, u)[i].unit < |table|
    ensures table[Cut(parts, table, u)[i].unit] !in Cut(parts, table, u)[i].count
    decreases |table| - u
  {
    match IndexOf(parts, table[u])
    case None =>
      CutMissing(parts, table, u);
      CutAtFirst(parts, table, u + 1, i);
    case Some(len) =>
      CutFound(parts, table, u, len);
      if i > 0 {
        CutAtFirst(parts[len + 1..], table, u + 1, i - 1);
      }
  }

  /** With none of the remaining symbols present, the loop adds nothing. */
  lemma {:induction false} NothingToCut(parts: string, table: string, u: nat)
    requires u <= |table|
    requires forall k :: u <= k < |table| ==> table[k] !in parts
    ensures Cut(parts, table, u) == []
    decreases |table| - u
  {
    if u < |table| {
      NothingToCut(parts, table, u + 1);
    }
  }

  /** When the symbol of a unit `k` at or after `u` is present, the loop yields a piece. */
  lemma {:induction false} SomethingToCut(parts: string, table: string, u: nat, k: nat)
    requires u <= k < |table| && table[k] in parts
    ensures |Cut(parts, table, u)| > 0
    decreases |table| - u
  {
    match IndexOf(parts, table[u])
    case Some(len) =>
      CutFound(parts, table, u, len);
    case None =>
      CutMissing(parts, table, u);
      SomethingToCut(parts, table, u + 1, k);
  }

  /** The pieces of the units before `k`: a prefix of `ps`, since the loop's units ascend. */
  function Before(ps: seq<Piece>, k: nat): seq<Piece>
  {
    if |ps| == 0 || ps[0].unit >= k then [] else [ps[0]] + Before(ps[1..], k)
  }

  /** Some piece of `ps` belongs to unit `k`. */
  predicate Takes(ps: seq<Piece>, k: nat) {
    exists i :: 0 <= i < |ps| && ps[i].unit == k
  }

  /**
   What unit `k` sees is the text the earlier units' cuts leave: the input without the
   compact text of their pieces. Unit `k` emits a piece exactly when its symbol occurs
   there, and that piece, right after the earlier ones, counts the text before the
   symbol's first occurrence there.
   */
  predicate Emits(parts: string, table: string, u: nat, k: nat)
    requires u <= k < |table|
  {
    EmitsIn(parts, Cut(parts, table, u), table, k)
  }

  /** `Emits` for given pieces `ps` of `parts`. */
  predicate EmitsIn(parts: string, ps: seq<Piece>, table: string, k: nat)
    requires k < |table|
  {
    var n := |Compact(Before(ps, k), table)|;
    && n <= |parts|
    && (Takes(ps, k) <==> table[k] in parts[n..])
    && (table[k] in parts[n..] ==>
          && |Before(ps, k)| < |ps|
          && ps[|Before(ps, k)|] == Piece(parts[n..][..IndexOf(parts[n..], table[k]).value], k))
  }

  /** Every unit emits as `Emits` says, whatever the input and wherever the loop starts. */
  lemma {:induction false} CutEmits(parts: string, table: string, u: nat, k: nat)
    requires u <= k < |table|
    ensures Emits(parts, table, u, k)
    decreases k - u
  {
    if u == k {
      EmitsHere(parts, table, k);
    } else {
      var found := IndexOf(parts, table[u]);
      if found.None? {
        CutEmits(parts, table, u + 1, k);
        EmitsSkip(parts, table, u, k);
      } else {
        var len := found.value;
        CutEmits(parts[len + 1..], table, u + 1, k);
        EmitsPast(parts, table, u, k, len);
      }
    }
  }

  /** The unit the loop is at sees the whole input. */
  lemma EmitsHere(parts: string, table: string, k: nat)
    requires k < |table|
    ensures Emits(parts, table, k, k)
  {
    var ps := Cut(parts, table, k);
    assert parts[0..] == parts;
    match IndexOf(parts, table[k])
    case None =>
      CutMissing(parts, table, k);
      CutUnits(parts, table, k + 1);
      assert Before(ps, k) == [];
      assert !Takes(ps, k);
    case Some(len) =>
      CutFound(parts, table, k, len);
      assert ps[0] == Piece(parts[..len], k);
      assert Before(ps, k) == [];
      assert Takes(ps, k);
  }

  /** An earlier unit whose symbol is absent cuts nothing. */
  lemma EmitsSkip(parts: string, table: string, u: nat, k: nat)
    requires u < k < |table| && IndexOf(parts, table[u]) == None
    requires Emits(parts, table, u + 1, k)
    ensures Emits(parts, table, u, k)
  {
    CutMissing(parts, table, u);
  }

  /** An earlier unit whose symbol is present cuts its count and symbol off the front. */
  lemma EmitsPast(parts: string, table: string, u: nat, k: nat, len: nat)
    requires u < k < |table| && IndexOf(parts, table[u]) == Some(len)
    requires Emits(parts[len + 1..], table, u + 1, k)
    ensures Emits(parts, table, u, k)
  {
    CutFound(parts, table, u, len);
    SplitAround(parts, len);
    EmitsCons(Piece(parts[..len], u), Cut(parts[len + 1..], table, u + 1), parts[len + 1..], table, k);
  }

  /** A piece of an earlier unit, and its symbol, in front of pieces that emit as `EmitsIn` says. */
  lemma EmitsCons(p: Piece, rest: seq<Piece>, tail: string, table: string, k: nat)
    requires p.unit < k < |table|
    requires EmitsIn(tail, rest, table, k)
    ensures EmitsIn(p.count + [table[p.unit]] + tail, [p] + rest, table, k)
  {
    var ps := [p] + rest;
    var parts := p.count + [table[p.unit]] + tail;
    assert ps[0] == p && ps[1..] == rest;
    var before := Before(rest, k);
    assert Before(ps, k) == [p] + before;
    CompactCons(p, before, table);
    var m := |Compact(before, table)|;
    var n := |Compact(Before(ps, k), table)|;
    assert n == |p.count| + 1 + m;
    assert parts[n..] == tail[m..];
    TakesCons(p, rest, k);
    if table[k] in tail[m..] {
      assert ps[|Before(ps, k)|] == rest[|before|];
    }
  }

  /** A piece of another unit in front changes nothing about unit `k`. */
  lemma TakesCons(p: Piece, rest: seq<Piece>, k: nat)
    requires p.unit != k
    ensures Takes([p] + rest, k) <==> Takes(rest, k)
  {
    var ps := [p] + rest;
    if Takes(rest, k) {
      var i :| 0 <= i < |rest| && rest[i].unit == k;
      assert ps[i + 1] == rest[i];
    }
    if Takes(ps, k) {
      var i :| 0 <= i < |ps| && ps[i].unit == k;
      assert ps[i] == rest[i - 1];
    }
  }

  // ---------------------------------------------------------------------------
  // Round trip
  // ---------------------------------------------------------------------------

  /** No symbol appears twice in the table. */
  predicate Distinct(table: string) {
    forall a, b :: 0 <= a < b < |table| ==> table[a] != table[b]
  }

  /** Pieces that `Compact` renders faithfully: units in order, counts free of symbols. */
  predicate WellFormed(ps: seq<Piece>, table: string, u: nat) {
    && UnitsAscend(ps, u, |table|)
    && (forall i :: 0 <= i < |ps| ==> forall c :: c in ps[i].count ==> c !in table)
  }

  /** A symbol that belongs to no piece does not occur in their compact text. */
  lemma {:induction false} CompactAvoids(ps: seq<Piece>, table: string, u: nat)
    requires Distinct(table) && u < |table|
    requires forall i :: 0 <= i < |ps| ==> ps[i].unit < |table| && ps[i].unit != u
    requires forall i :: 0 <= i < |ps| ==> forall c :: c in ps[i].count ==> c !in table
    ensures table[u] !in Compact(ps, table)
  {
    if |ps| > 0 {
      var p := ps[0];
      CompactAvoids(ps[1..], table, u);
      assert ps == [p] + ps[1..];
      CompactCons(p, ps[1..], table);
      assert table[u] in table;
      assert table[u] != table[p.unit];
      assert table[u] !in p.count;
    }
  }

  /** The first occurrence of `x` right after a prefix that lacks it. */
  lemma {:induction false} IndexAfterPrefix(a: string, x: char, b: string)
    requires x !in a
    ensures IndexOf(a + [x] + b, x) == Some(|a|)
    decreases |a|
  {
    var s := a + [x] + b;
    if |a| > 0 {
      assert a[0] in a;
      assert s[1..] == a[1..] + [x] + b;
      IndexAfterPrefix(a[1..], x, b);
    }
  }

  /** The first piece's unit is `u`: the cut at `u` gives that piece back and leaves the rest. */
  lemma CutCompactHead(ps: seq<Piece>, table: string, u: nat)
    requires Distinct(table) && u < |table| && WellFormed(ps, table, u)
    requires |ps| > 0 && ps[0].unit == u
    ensures Cut(Compact(ps, table), table, u) == [ps[0]] + Cut(Compact(ps[1..], table), table, u + 1)
  {
    var p := ps[0];
    var text := Compact(ps, table);
    var rest := Compact(ps[1..], table);
    assert ps == [p] + ps[1..];
    CompactCons(p, ps[1..], table);
    assert table[u] in table;
    IndexAfterPrefix(p.count, table[u], rest);
    CutFound(text, table, u, |p.count|);
    assert text[..|p.count|] == p.count;
    assert text[|p.count| + 1..] == rest;
  }

  lemma WellFormedTail(ps: seq<Piece>, table: string, u: nat)
    requires WellFormed(ps, table, u) && |ps| > 0 && ps[0].unit == u
    ensures WellFormed(ps[1..], table, u + 1)
  {
    forall i | 0 <= i < |ps| - 1
      ensures u + 1 <= ps[1..][i].unit
    {
      assert ps[0].unit < ps[i + 1].unit;
    }
  }

  lemma WellFormedSkip(ps: seq<Piece>, table: string, u: nat)
    requires WellFormed(ps, table, u) && |ps| > 0 && ps[0].unit != u
    ensures WellFormed(ps, table, u + 1)
    ensures forall i :: 0 <= i < |ps| ==> ps[i].unit != u
  {
    forall i | 0 <= i < |ps|
      ensures u + 1 <= ps[i].unit
    {
      assert ps[0].unit <= ps[i].unit;
    }
  }

  /** Round trip: cutting the compact text of well-formed pieces gives the pieces back. */
  lemma {:induction false} CutCompact(ps: seq<Piece>, table: string, u: nat)
    requires Distinct(table) && u <= |table| && WellFormed(ps, table, u)
    ensures Cut(Compact(ps, table), table, u) == ps
    decreases |table| - u, 1
  {
    if |ps| == 0 {
      NothingToCut("", table, u);
    } else if ps[0].unit == u {
      CutCompactFirst(ps, table, u);
    } else {
      CutCompactLater(ps, table, u);
    }
  }

  lemma {:induction false} CutCompactFirst(ps: seq<Piece>, table: string, u: nat)
    requires Distinct(table) && u < |table| && WellFormed(ps, table, u)
    requires |ps| > 0 && ps[0].unit == u
    ensures Cut(Compact(ps, table), table, u) == ps
    decreases |table| - u, 0
  {
    WellFormedTail(ps, table, u);
    CutCompact(ps[1..], table, u + 1);
    CutCompactTaken(ps, table, u);
  }

  lemma {:induction false} CutCompactLater(ps: seq<Piece>, table: string, u: nat)
    requires Distinct(table) && u < |table| && WellFormed(ps, table, u)
    requires |ps| > 0 && ps[0].unit != u
    ensures Cut(Compact(ps, table), table, u) == ps
    decreases |table| - u, 0
  {
    WellFormedSkip(ps, table, u);
    CutCompact(ps, table, u + 1);
    CutCompactSkipped(ps, table, u);
  }

  /** The step where unit `u` is the first piece's: that piece comes back first. */
  lemma CutCompactTaken(ps: seq<Piece>, table: string, u: nat)
    requires Distinct(table) && u < |table| && WellFormed(ps, table, u)
    requires |ps| > 0 && ps[0].unit == u
    requires Cut(Compact(ps[1..], table), table, u + 1) == ps[1..]
    ensures Cut(Compact(ps, table), table, u) == ps
  {
    CutCompactHead(ps, table, u);
    assert ps == [ps[0]] + ps[1..];
  }

  /** The step where no piece has unit `u`: the symbol is absent and the loop moves on. */
  lemma CutCompactSkipped(ps: seq<Piece>, table: string, u: nat)
    requires Distinct(table) && u < |table|
    requires forall i :: 0 <= i < |ps| ==> ps[i].unit < |table| && ps[i].unit != u
    requires forall i :: 0 <= i < |ps| ==> forall c :: c in ps[i].count ==> c !in table
    requires Cut(Compact(ps, table), table, u + 1) == ps
    ensures Cut(Compact(ps, table), table, u) == ps
  {
    CompactAvoids(ps, table, u);
    CutMissing(Compact(ps, table), table, u);
  }

  // ---------------------------------------------------------------------------
  // The phrase
  // ---------------------------------------------------------------------------

  /** The source's table has six distinct symbols, one per unit word. */
  lemma SymbolsTable()
    ensures |Symbols| == |UnitWords| == 6
    ensures Distinct(Symbols)
  {
  }

  /** Every unit word is non-empty and starts and ends with a letter. */
  lemma UnitWordEnds(k: nat)
    requires k < |UnitWords|
    ensures |UnitWords[k]| > 0
    ensures !IsTrimmable(UnitWords[k][0]) && !IsTrimmable(UnitWords[k][|UnitWords[k]| - 1])
  {
  }

  /** The spelled-out units, "count unit" each. */
  function Words(ps: seq<Piece>): seq<string>
  {
    if |ps| == 0 then [] else [ps[0].count + " " + Word(ps[0])] + Words(ps[1..])
  }

  /** The loop's accumulator is the spelled-out units joined by spaces, plus one trailing space. */
  lemma {:induction false} PhraseIsJoin(ps: seq<Piece>)
    requires |ps| > 0
    ensures PhraseOf(ps) == Join(Words(ps), ' ') + " "
  {
    if |ps| > 1 {
      PhraseIsJoin(ps[1..]);
      assert Words(ps)[1..] == Words(ps[1..]);
    }
  }

  /** Every spelled-out unit starts with its count's first character and ends with a letter. */
  lemma {:induction false} WordsShape(ps: seq<Piece>)
    requires forall i :: 0 <= i < |ps| ==> |ps[i].count| > 0 && ps[i].unit < |UnitWords|
    ensures |Words(ps)| == |ps|
    ensures forall i :: 0 <= i < |ps| ==>
      |Words(ps)[i]| > 0 && Words(ps)[i][0] == ps[i].count[0] && !IsTrimmable(Words(ps)[i][|Words(ps)[i]| - 1])
  {
    if |ps| > 0 {
      WordsShape(ps[1..]);
      WordShape(ps[0]);
      WordsCons(ps);
    }
  }

  lemma WordsCons(ps: seq<Piece>)
    requires |ps| > 0
    ensures |Words(ps)| == 1 + |Words(ps[1..])|
    ensures Words(ps)[0] == ps[0].count + " " + Word(ps[0])
    ensures forall i :: 0 < i < |Words(ps)| ==> Words(ps)[i] == Words(ps[1..])[i - 1]
  {
  }

  lemma WordShape(p: Piece)
    requires |p.count| > 0 && p.unit < |UnitWords|
    ensures var w := p.count + " " + Word(p);
      w[0] == p.count[0] && !IsTrimmable(w[|w| - 1])
  {
    var word := UnitWords[p.unit];
    UnitWordEnds(p.unit);
    var w := p.count + " " + word;
    assert w[|w| - 1] == word[|word| - 1];
  }

  /** A duration with none of the six symbols resolves to now, and only such a duration does. */
  lemma DurationNow(duration: string)
    ensures ParseDuration(duration) == Now <==> forall c :: c in duration ==> c !in Symbols
  {
    if forall c :: c in duration ==> c !in Symbols {
      NoSymbolNoPiece(duration);
    } else {
      var c :| c in duration && c in Symbols;
      SymbolMakesPiece(duration, c);
      PhraseNotBlank(Pieces(duration));
    }
  }

  lemma NoSymbolNoPiece(duration: string)
    requires forall c :: c in duration ==> c !in Symbols
    ensures Pieces(duration) == []
  {
    forall k | 0 <= k < |Symbols|
      ensures Symbols[k] !in duration
    {
      assert Symbols[k] in Symbols;
    }
    NothingToCut(duration, Symbols, 0);
  }

  lemma SymbolMakesPiece(duration: string, c: char)
    requires c in duration && c in Symbols
    ensures |Pieces(duration)| > 0 && Pieces(duration)[0].unit < |UnitWords|
  {
    var k :| 0 <= k < |Symbols| && Symbols[k] == c;
    SomethingToCut(duration, Symbols, 0, k);
    CutUnits(duration, Symbols, 0);
    SymbolsTable();
  }

  /** The phrase of at least one piece always has a letter in it, so it never trims away. */
  lemma PhraseNotBlank(ps: seq<Piece>)
    requires |ps| > 0 && ps[0].unit < |UnitWords|
    ensures Trim(PhraseOf(ps)) != ""
  {
    var p := ps[0];
    UnitWordEnds(p.unit);
    var phrase := PhraseOf(ps);
    assert phrase == p.count + " " + Word(p) + " " + PhraseOf(ps[1..]);
    var at := |p.count| + 1;
    assert phrase[at] == Word(p)[0];
    TrimEmpty(phrase);
  }

  /**
   A compact duration whose counts are non-empty digit strings reads back as the phrase
   "count unit count unit ...", in unit order, with single spaces.
   */
  lemma CompactDuration(ps: seq<Piece>)
    requires |ps| > 0 && WellFormed(ps, Symbols, 0)
    requires forall i :: 0 <= i < |ps| ==> |ps[i].count| > 0 && IsDigits(ps[i].count)
    ensures ParseDuration(Compact(ps, Symbols)) == Relative(Join(Words(ps), ' '))
  {
    CompactPieces(ps);
    assert IsDigit(ps[0].count[0]);
    PhraseTrimmed(ps);
  }

  /** The round trip under the source's table, whose units all have a word. */
  lemma CompactPieces(ps: seq<Piece>)
    requires WellFormed(ps, Symbols, 0)
    ensures Pieces(Compact(ps, Symbols)) == ps
    ensures forall i :: 0 <= i < |ps| ==> ps[i].unit < |UnitWords|
  {
    SymbolsTable();
    CutCompact(ps, Symbols, 0);
  }

  /** Trimming the accumulator drops exactly its trailing space when the first count starts visibly. */
  lemma PhraseTrimmed(ps: seq<Piece>)
    requires |ps| > 0
    requires forall i :: 0 <= i < |ps| ==> |ps[i].count| > 0 && ps[i].unit < |UnitWords|
    requires !IsTrimmable(ps[0].count[0])
    ensures Trim(PhraseOf(ps)) == Join(Words(ps), ' ') != ""
  {
    PhraseIsJoin(ps);
    var ws := Words(ps);
    WordsShape(ps);
    JoinEnds(ws, ' ');
    TrimTrailingSpace(Join(ws, ' '));
  }
}

=== FILE: matcher.dfy ===
/**
 The token matcher: a blueprint and the tokens of one invocation become the values of
 its flags and arguments. Phase 1 walks every original index looking for flag markers;
 phase 2 hands the tokens no flag took to the arguments, front to back.
 */
module Matcher {
  import opened Wrappers
  import opened Strings
  import opened Blueprints

  /** The outcome of one parse: argument values (`None` for PHP's `null`) and flag values. */
  datatype ParsedCommand = ParsedCommand(
    blueprint: Blueprint,
    arguments: map<string, Option<string>>,
    flags: map<string, string>)

  function Min(a: int, b: int): int { if a <= b then a else b }

  function Max(a: int, b: int): int { if a <= b then b else a }

  // ---------------------------------------------------------------------------
  // The PHP array primitives phase 1 uses
  // ---------------------------------------------------------------------------

  /** `range($lo, $hi)` on integers: every integer between the two, inclusive, from `lo` towards `hi`. */
  function Range(lo: int, hi: int): (r: seq<int>)
    ensures |r| == Max(lo, hi) - Min(lo, hi) + 1
    ensures r[0] == lo && r[|r| - 1] == hi
    ensures forall k :: k in r <==> Min(lo, hi) <= k <= Max(lo, hi)
    decreases Max(lo, hi) - Min(lo, hi)
  {
    if lo == hi then [lo]
    else if lo < hi then [lo] + Range(lo + 1, hi)
    else [lo] + Range(lo - 1, hi)
  }

  /** `makeKeys`: the values of a list become the keys of a map, each holding "". */
  function MakeKeys(values: seq<int>): (keys: map<int, string>)
    ensures keys.Keys == set v | v in values
    ensures forall k :: k in keys ==> keys[k] == ""
  {
    if |values| == 0 then map[]
    else
      var front := values[..|values| - 1];
      assert values == front + [values[|values| - 1]];
      MakeKeys(front)[values[|values| - 1] := ""]
  }

  /** `array_slice($list, $offset, $length)` on a list, for an offset inside or just past it. */
  function ArraySlice(list: seq<string>, offset: nat, length: int): (r: seq<string>)
    requires offset <= |list|
    ensures |r| <= |list| - offset && r == list[offset..offset + |r|]
    ensures length >= 0 ==> |r| == Min(length, |list| - offset)
    ensures length < 0 ==> |r| == Max(0, |list| - offset + length)
  {
    var len := if length < 0 then |list| - offset + length else Min(length, |list| - offset);
    if len <= 0 then [] else list[offset..offset + len]
  }

  // ---------------------------------------------------------------------------
  // Phase 1: flags
  // ---------------------------------------------------------------------------

  /** The flag name a token stands for when it starts with `-`. */
  function MarkerName(token: string): (r: Option<string>)
    ensures r.Some? <==> StartsWith(token, "-")
    ensures r.Some? ==> token == "-" + r.value
  {
    if StartsWith(token, "-") then
      assert token == [token[0]] + token[1..];
      Some(token[1..])
    else None
  }

  /** A flag's length as phase 1 uses it: -1 becomes the number of original tokens. */
  function EffectiveLength(f: Flag, tokenCount: nat): int
  {
    if f.length == Unbounded then tokenCount else f.length
  }

  /** The value a flag opened at index `i` captures: the following tokens, space-joined. */
  function FlagValue(tokens: seq<string>, i: nat, f: Flag): string
    requires i < |tokens|
  {
    Join(ArraySlice(tokens, i + 1, EffectiveLength(f, |tokens|)), ' ')
  }

  /** The keys removed from the argument pool when a flag opens at index `i`. */
  function FlagKeys(tokens: seq<string>, i: nat, f: Flag): set<int>
  {
    MakeKeys(Range(i, i + EffectiveLength(f, |tokens|))).Keys
  }

  /** Phase 1's state: the flags captured so far and the keys removed from the pool. */
  datatype FlagScan = FlagScan(flags: map<string, string>, removed: set<int>)

  /** One iteration of the phase 1 loop, at original index `i`. */
  function ScanToken(bp: Blueprint, tokens: seq<string>, st: FlagScan, i: nat): FlagScan
    requires i < |tokens|
  {
    match MarkerName(tokens[i])
    case None => st
    case Some(name) =>
      if name in st.flags then st
      else match GetFlag(bp, name)
        case None => st
        case Some(f) =>
          FlagScan(st.flags[f.name := FlagValue(tokens, i, f)], st.removed + FlagKeys(tokens, i, f))
  }

  /** Phase 1 after visiting original indices 0 .. i-1. */
  function ScanFlags(bp: Blueprint, tokens: seq<string>, i: nat): FlagScan
    requires i <= |tokens|
    decreases i
  {
    if i == 0 then FlagScan(map[], {})
    else ScanToken(bp, tokens, ScanFlags(bp, tokens, i - 1), i - 1)
  }

  /**
   Token `i` opens a capture: it is `-name` for a blueprint flag `name`, and it is the
   first such token (a repeated marker is skipped, whatever came before it).
   */
  predicate OpensCapture(bp: Blueprint, tokens: seq<string>, i: int)
    requires 0 <= i < |tokens|
  {
    && MarkerName(tokens[i]).Some?
    && GetFlag(bp, MarkerName(tokens[i]).value).Some?
    && tokens[i] !in tokens[..i]
  }

  /** The flag the marker at `i` opens. */
  function OpenedFlag(bp: Blueprint, tokens: seq<string>, i: int): Flag
    requires 0 <= i < |tokens| && OpensCapture(bp, tokens, i)
  {
    GetFlag(bp, MarkerName(tokens[i]).value).value
  }

  /** Phase 1 agrees with its declarative reading after every number of iterations. */
  lemma {:induction false} ScanFlagsSpec(bp: Blueprint, tokens: seq<string>, i: nat)
    requires i <= |tokens|
    ensures ScanAgrees(bp, tokens, i, ScanFlags(bp, tokens, i))
    decreases i, 1
  {
    if i == 0 {
      ScanStart(bp, tokens);
    } else {
      ScanStep(bp, tokens, i);
    }
  }

  /** Before the loop nothing is captured and nothing removed, as no index has been visited. */
  lemma ScanStart(bp: Blueprint, tokens: seq<string>)
    ensures ScanAgrees(bp, tokens, 0, ScanFlags(bp, tokens, 0))
  {
    assert tokens[..0] == [];
  }

  /**
   The declarative reading of phase 1's state `st` after the first `i` indices: a flag is
   captured exactly when its marker appears; its value is what its first marker captures;
   and the removed keys are exactly those of the opening markers.
   */
  ghost predicate ScanAgrees(bp: Blueprint, tokens: seq<string>, i: nat, st: FlagScan)
    requires i <= |tokens|
  {
    && (forall name :: name in st.flags <==> GetFlag(bp, name).Some? && "-" + name in tokens[..i])
    && (forall j :: 0 <= j < i && OpensCapture(bp, tokens, j) ==>
          var name := MarkerName(tokens[j]).value;
          name in st.flags && st.flags[name] == FlagValue(tokens, j, OpenedFlag(bp, tokens, j)))
    && (forall k :: k in st.removed <==>
          exists j :: 0 <= j < i && OpensCapture(bp, tokens, j) && k in FlagKeys(tokens, j, OpenedFlag(bp, tokens, j)))
  }

  /** One more iteration of phase 1 keeps the declarative reading. */
  lemma {:induction false} ScanStep(bp: Blueprint, tokens: seq<string>, i: nat)
    requires 0 < i <= |tokens|
    ensures ScanAgrees(bp, tokens, i, ScanFlags(bp, tokens, i))
    decreases i, 0
  {
    var p := i - 1;
    ScanFlagsSpec(bp, tokens, p);
    var st := ScanFlags(bp, tokens, p);
    assert ScanFlags(bp, tokens, i) == ScanToken(bp, tokens, st, p);
    if OpensCapture(bp, tokens, p) {
      ScanOpens(bp, tokens, p, st);
    } else {
      ScanSkips(bp, tokens, p, st);
    }
  }

  /** A token that opens no capture leaves the state alone, and the reading still holds. */
  lemma ScanSkips(bp: Blueprint, tokens: seq<string>, p: nat, st: FlagScan)
    requires p < |tokens| && ScanAgrees(bp, tokens, p, st) && !OpensCapture(bp, tokens, p)
    ensures ScanToken(bp, tokens, st, p) == st
    ensures ScanAgrees(bp, tokens, p + 1, st)
  {
    var t := tokens[p];
    assert tokens[..p + 1] == tokens[..p] + [t];
    forall name
      ensures name in st.flags <==> GetFlag(bp, name).Some? && "-" + name in tokens[..p + 1]
    {
      if "-" + name == t {
        assert ("-" + name)[1..] == name;
        assert MarkerName(t) == Some(name);
      }
    }
    if MarkerName(t).Some? && GetFlag(bp, MarkerName(t).value).Some? {
      assert t in tokens[..p];
    }
  }

  /** A token that opens a capture records its flag's value and removes its keys. */
  lemma ScanOpens(bp: Blueprint, tokens: seq<string>, p: nat, st: FlagScan)
    requires p < |tokens| && ScanAgrees(bp, tokens, p, st) && OpensCapture(bp, tokens, p)
    ensures var f := OpenedFlag(bp, tokens, p);
      ScanToken(bp, tokens, st, p) ==
        FlagScan(st.flags[f.name := FlagValue(tokens, p, f)], st.removed + FlagKeys(tokens, p, f))
    ensures ScanAgrees(bp, tokens, p + 1, ScanToken(bp, tokens, st, p))
  {
    OpensFresh(bp, tokens, p, st);
    OpensNames(bp, tokens, p, st);
    OpensValues(bp, tokens, p, st);
    OpensRemoved(bp, tokens, p, st);
  }

  /** The flag a capture opens is named by its marker and was not captured before. */
  lemma OpensFresh(bp: Blueprint, tokens: seq<string>, p: nat, st: FlagScan)
    requires p < |tokens| && ScanAgrees(bp, tokens, p, st) && OpensCapture(bp, tokens, p)
    ensures OpenedFlag(bp, tokens, p).name == MarkerName(tokens[p]).value
    ensures MarkerName(tokens[p]).value !in st.flags
  {
    var n0 := MarkerName(tokens[p]).value;
    assert ("-" + n0) == tokens[p];
  }

  lemma OpensNames(bp: Blueprint, tokens: seq<string>, p: nat, st: FlagScan)
    requires p < |tokens| && ScanAgrees(bp, tokens, p, st) && OpensCapture(bp, tokens, p)
    ensures var f := OpenedFlag(bp, tokens, p);
      forall name :: name in st.flags[f.name := FlagValue(tokens, p, f)]
                     <==> GetFlag(bp, name).Some? && "-" + name in tokens[..p + 1]
  {
    var t := tokens[p];
    var n0 := MarkerName(t).value;
    var f := OpenedFlag(bp, tokens, p);
    assert f.name == n0;
    assert tokens[..p + 1] == tokens[..p] + [t];
    forall name
      ensures name in st.flags[n0 := FlagValue(tokens, p, f)]
              <==> GetFlag(bp, name).Some? && "-" + name in tokens[..p + 1]
    {
      if "-" + name == t {
        assert name == ("-" + name)[1..] == n0;
      }
    }
  }

  lemma OpensValues(bp: Blueprint, tokens: seq<string>, p: nat, st: FlagScan)
    requires p < |tokens| && ScanAgrees(bp, tokens, p, st) && OpensCapture(bp, tokens, p)
    ensures var f := OpenedFlag(bp, tokens, p);
      var m := st.flags[f.name := FlagValue(tokens, p, f)];
      forall j :: 0 <= j < p + 1 && OpensCapture(bp, tokens, j) ==>
        var name := MarkerName(tokens[j]).value;
        name in m && m[name] == FlagValue(tokens, j, OpenedFlag(bp, tokens, j))
  {
    var n0 := MarkerName(tokens[p]).value;
    var f := OpenedFlag(bp, tokens, p);
    assert f.name == n0;
    forall j | 0 <= j < p && OpensCapture(bp, tokens, j)
      ensures MarkerName(tokens[j]).value != n0
    {
      assert tokens[j] in tokens[..p];
    }
  }

  lemma OpensRemoved(bp: Blueprint, tokens: seq<string>, p: nat, st: FlagScan)
    requires p < |tokens| && ScanAgrees(bp, tokens, p, st) && OpensCapture(bp, tokens, p)
    ensures var f := OpenedFlag(bp, tokens, p);
      forall k :: k in st.removed + FlagKeys(tokens, p, f) <==>
        exists j :: 0 <= j < p + 1 && OpensCapture(bp, tokens, j) && k in FlagKeys(tokens, j, OpenedFlag(bp, tokens, j))
  {
  }

  // ---------------------------------------------------------------------------
  // The pool phase 2 reads
  // ---------------------------------------------------------------------------

  /** The indices from `k` below `n` that phase 1 did not remove, in increasing order. */
  function Remaining(n: nat, removed: set<int>, k: nat): (idx: seq<nat>)
    requires k <= n
    ensures forall a :: 0 <= a < |idx| ==> k <= idx[a] < n && idx[a] !in removed
    decreases n - k
  {
    if k == n then []
    else if k in removed then Remaining(n, removed, k + 1)
    else [k] + Remaining(n, removed, k + 1)
  }

  /** The surviving indices are exactly the non-removed ones from `k` below `n`, in increasing order. */
  lemma {:induction false} RemainingExact(n: nat, removed: set<int>, k: nat)
    requires k <= n
    ensures forall a, b :: 0 <= a < b < |Remaining(n, removed, k)| ==> Remaining(n, removed, k)[a] < Remaining(n, removed, k)[b]
    ensures forall m :: k <= m < n && m !in removed <==> m in Remaining(n, removed, k)
    decreases n - k
  {
    if k < n {
      RemainingExact(n, removed, k + 1);
    }
  }

  /** `array_diff_key` then `array_splice`'s renumbering: the surviving tokens, in original order. */
  function Pool(tokens: seq<string>, removed: set<int>): seq<string>
  {
    var idx := Remaining(|tokens|, removed, 0);
    seq(|idx|, a requires 0 <= a < |idx| => tokens[idx[a]])
  }

  // ---------------------------------------------------------------------------
  // Phase 2: arguments
  // ---------------------------------------------------------------------------

  /**
   How many pool tokens `array_splice($pool, 0, $length)` takes, after a negative length
   has become `count + length + 1`: a fixed length takes what is there, -1 takes all.
   */
  function TakeCount(length: int, available: nat): (k: nat)
    ensures k <= available
    ensures length >= 0 ==> k == Min(length, available)
    ensures length == Unbounded ==> k == available
  {
    var spliceLength := if length < 0 then available + length + 1 else length;
    if spliceLength >= 0 then Min(spliceLength, available) else Max(0, available + spliceLength)
  }

  /** An argument's value: the joined tokens, with "" turned into `null`. */
  function Entry(slice: seq<string>): Option<string>
  {
    var joined := Join(slice, ' ');
    if joined == "" then None else Some(joined)
  }

  function Flatten(slices: seq<seq<string>>): seq<string>
  {
    if |slices| == 0 then [] else slices[0] + Flatten(slices[1..])
  }

  /** The pool tokens each argument takes, in declared order; together a prefix of the pool. */
  function Consumed(args: seq<Argument>, pool: seq<string>): (slices: seq<seq<string>>)
    ensures |slices| == |args|
    ensures |Flatten(slices)| <= |pool| && Flatten(slices) == pool[..|Flatten(slices)|]
  {
    if |args| == 0 then []
    else
      var k := TakeCount(args[0].length, |pool|);
      var rest := Consumed(args[1..], pool[k..]);
      var slices := [pool[..k]] + rest;
      assert slices[1..] == rest;
      assert pool == pool[..k] + pool[k..];
      slices
  }

  /** The phase 2 loop: each argument takes its tokens and its name is (re)assigned. */
  function AssignArguments(args: seq<Argument>, pool: seq<string>, acc: map<string, Option<string>>)
    : map<string, Option<string>>
  {
    if |args| == 0 then acc
    else
      var k := TakeCount(args[0].length, |pool|);
      AssignArguments(args[1..], pool[k..], acc[args[0].name := Entry(pool[..k])])
  }

  /** The names the blueprint declares arguments under. */
  function ArgumentNames(args: seq<Argument>): set<string>
  {
    set a | a in args :: a.name
  }

  /**
   `parse`: phase 1 captures the flags and removes their markers and values from the
   pool, phase 2 assigns what is left to the arguments in declared order.
   */
  function Parse(bp: Blueprint, tokens: seq<string>): (r: ParsedCommand)
    ensures r.blueprint == bp
    ensures r.arguments.Keys == ArgumentNames(bp.arguments)
    ensures forall name :: name in r.flags <==> GetFlag(bp, name).Some? && "-" + name in tokens
  {
    var scan := ScanFlags(bp, tokens, |tokens|);
    ScanFlagsSpec(bp, tokens, |tokens|);
    assert tokens[..|tokens|] == tokens;
    var pool := ParsePool(bp, tokens);
    AssignKeys(bp.arguments, pool, map[]);
    ParsedCommand(bp, AssignArguments(bp.arguments, pool, map[]), scan.flags)
  }

  /** The tokens phase 1 leaves for the arguments. */
  function ParsePool(bp: Blueprint, tokens: seq<string>): seq<string>
  {
    Pool(tokens, ScanFlags(bp, tokens, |tokens|).removed)
  }

  lemma {:induction false} AssignKeys(args: seq<Argument>, pool: seq<string>, acc: map<string, Option<string>>)
    ensures AssignArguments(args, pool, acc).Keys == acc.Keys + ArgumentNames(args)
  {
    if |args| > 0 {
      var k := TakeCount(args[0].length, |pool|);
      AssignKeys(args[1..], pool[k..], acc[args[0].name := Entry(pool[..k])]);
      assert ArgumentNames(args) == {args[0].name} + ArgumentNames(args[1..]) by {
        assert forall a :: a in args <==> a == args[0] || a in args[1..];
      }
    }
  }

  // ---------------------------------------------------------------------------
  // Properties of the matcher
  // ---------------------------------------------------------------------------

  /**
   A flag of length n >= 0 (or -1, read as the token count) opened at `i` captures the
   tokens at i+1 .. i+n, cut off at the end of the input; -1 captures every later token.
   */
  lemma FlagValueWindow(tokens: seq<string>, i: nat, f: Flag)
    requires i < |tokens|
    requires f.length >= Unbounded
    ensures f.length >= 0 ==>
      FlagValue(tokens, i, f) == Join(tokens[i + 1..Min(i + 1 + f.length, |tokens|)], ' ')
    ensures f.length == Unbounded ==> FlagValue(tokens, i, f) == Join(tokens[i + 1..], ' ')
  {
    if f.length == Unbounded {
      assert ArraySlice(tokens, i + 1, |tokens|) == tokens[i + 1..];
    }
  }

  /** The keys a flag of length n >= 0 (or -1, read as the token count) removes are i .. i+n. */
  lemma FlagKeysWindow(tokens: seq<string>, i: nat, f: Flag)
    requires f.length >= Unbounded
    ensures forall k :: k in FlagKeys(tokens, i, f) <==> i <= k <= i + EffectiveLength(f, |tokens|)
  {
  }

  /**
   An index survives into the pool exactly when no opening marker's removal range covers
   it; that includes markers of unknown flags and repeated markers, which stay as text.
   */
  lemma PoolMembership(bp: Blueprint, tokens: seq<string>, m: nat)
    requires m < |tokens|
    ensures m in Remaining(|tokens|, ScanFlags(bp, tokens, |tokens|).removed, 0) <==>
              forall j :: 0 <= j < |tokens| && OpensCapture(bp, tokens, j) ==> m !in FlagKeys(tokens, j, OpenedFlag(bp, tokens, j))
  {
    ScanFlagsSpec(bp, tokens, |tokens|);
    RemainingExact(|tokens|, ScanFlags(bp, tokens, |tokens|).removed, 0);
  }

  /** One more index: it joins the end of the survivors unless it was removed. */
  lemma {:induction false} RemainingSnoc(n: nat, removed: set<int>, k: nat)
    requires k <= n
    ensures n in removed ==> Remaining(n + 1, removed, k) == Remaining(n, removed, k)
    ensures n !in removed ==> Remaining(n + 1, removed, k) == Remaining(n, removed, k) + [n]
    decreases n - k
  {
    if k == n {
      assert Remaining(n + 1, removed, n + 1) == [];
    } else {
      RemainingSnoc(n, removed, k + 1);
      if k !in removed && n !in removed {
        var tail := Remaining(n, removed, k + 1);
        assert [k] + (tail + [n]) == ([k] + tail) + [n];
      }
    }
  }

  /**
   The pool grows token by token in input order: one more input token is appended to the
   pool when phase 1 left it there, and dropped when it removed it.
   */
  lemma PoolSnoc(tokens: seq<string>, t: string, removed: set<int>)
    ensures Pool(tokens + [t], removed) == Pool(tokens, removed) + (if |tokens| in removed then [] else [t])
  {
    var lhs := Pool(tokens + [t], removed);
    var rhs := Pool(tokens, removed) + (if |tokens| in removed then [] else [t]);
    RemainingSnoc(|tokens|, removed, 0);
    PoolSize(tokens + [t], removed);
    PoolSize(tokens, removed);
    forall a | 0 <= a < |lhs|
      ensures lhs[a] == rhs[a]
    {
      PoolSnocAt(tokens, t, removed, a);
    }
  }

  lemma PoolSnocAt(tokens: seq<string>, t: string, removed: set<int>, a: nat)
    requires a < |Pool(tokens + [t], removed)|
    ensures a < |Pool(tokens, removed)| ==> Pool(tokens + [t], removed)[a] == Pool(tokens, removed)[a]
    ensures a == |Pool(tokens, removed)| ==> |tokens| !in removed && Pool(tokens + [t], removed)[a] == t
  {
    var n := |tokens|;
    var all := tokens + [t];
    RemainingSnoc(n, removed, 0);
    var idx := Remaining(n, removed, 0);
    var idx' := Remaining(n + 1, removed, 0);
    PoolSize(all, removed);
    PoolSize(tokens, removed);
    PoolAt(all, removed, a);
    if a < |idx| {
      PoolAt(tokens, removed, a);
      assert idx'[a] == idx[a];
    } else {
      assert idx'[a] == n;
    }
  }

  lemma PoolSize(tokens: seq<string>, removed: set<int>)
    ensures |Pool(tokens, removed)| == |Remaining(|tokens|, removed, 0)|
  {
  }

  lemma PoolAt(tokens: seq<string>, removed: set<int>, a: nat)
    requires a < |Remaining(|tokens|, removed, 0)|
    ensures a < |Pool(tokens, removed)|
    ensures Pool(tokens, removed)[a] == tokens[Remaining(|tokens|, removed, 0)[a]]
  {
  }

  /** With nothing removed, the indices from `k` on all survive, each in its own place. */
  lemma {:induction false} RemainingAll(n: nat, k: nat)
    requires k <= n
    ensures |Remaining(n, {}, k)| == n - k
    ensures forall a :: 0 <= a < n - k ==> Remaining(n, {}, k)[a] == k + a
    decreases n - k
  {
    if k < n {
      RemainingAll(n, k + 1);
      var rest := Remaining(n, {}, k + 1);
      assert Remaining(n, {}, k) == [k] + rest;
    }
  }

  /** When phase 1 removes nothing, phase 2 reads the whole input, unchanged. */
  lemma PoolUntouched(tokens: seq<string>)
    ensures Pool(tokens, {}) == tokens
  {
    RemainingAll(|tokens|, 0);
  }

  /** `implode` yields "" (so the argument gets `null`) exactly for no tokens or one empty token. */
  lemma EntryIsNull(slice: seq<string>)
    ensures Entry(slice) == None <==> slice == [] || slice == [""]
    ensures Entry(slice) != None ==> Entry(slice) == Some(Join(slice, ' '))
  {
    JoinEmpty(slice, ' ');
  }

  lemma FlattenCons(x: seq<string>, ys: seq<seq<string>>)
    ensures Flatten([x] + ys) == x + Flatten(ys)
  {
    assert ([x] + ys)[1..] == ys;
  }

  /** How many pool tokens the first `j` arguments take between them. */
  function Offset(args: seq<Argument>, pool: seq<string>, j: nat): (off: nat)
    requires j <= |args|
    ensures off <= |pool|
  {
    if j == 0 then 0
    else
      var k := TakeCount(args[0].length, |pool|);
      k + Offset(args[1..], pool[k..], j - 1)
  }

  /**
   Argument j takes its tokens from where argument j-1 stopped: a fixed length k takes
   min(k, what is left), -1 takes everything left.
   */
  lemma {:induction false} ConsumedSlice(args: seq<Argument>, pool: seq<string>, j: nat)
    requires j < |args|
    ensures Consumed(args, pool)[j] == Window(pool, Offset(args, pool, j), args[j].length)
  {
    if j == 0 {
      ConsumedFirst(args, pool);
    } else {
      var k := TakeCount(args[0].length, |pool|);
      ConsumedSlice(args[1..], pool[k..], j - 1);
      ConsumedStep(args, pool, j);
    }
  }

  lemma ConsumedFirst(args: seq<Argument>, pool: seq<string>)
    requires 0 < |args|
    ensures Consumed(args, pool)[0] == Window(pool, Offset(args, pool, 0), args[0].length)
  {
    var k := TakeCount(args[0].length, |pool|);
    assert Consumed(args, pool)[0] == pool[..k];
    assert Window(pool, 0, args[0].length) == pool[0..k];
  }

  lemma ConsumedStep(args: seq<Argument>, pool: seq<string>, j: nat)
    requires 0 < j < |args|
    requires var k := TakeCount(args[0].length, |pool|);
      Consumed(args[1..], pool[k..])[j - 1] ==
        Window(pool[k..], Offset(args[1..], pool[k..], j - 1), args[1..][j - 1].length)
    ensures Consumed(args, pool)[j] == Window(pool, Offset(args, pool, j), args[j].length)
  {
    var k := TakeCount(args[0].length, |pool|);
    ConsumedLater(args, pool, j);
    WindowShift(pool, k, Offset(args[1..], pool[k..], j - 1), args[j].length);
  }

  /** Past the first argument, the slices are those of the rest of the arguments on the rest of the pool. */
  lemma ConsumedLater(args: seq<Argument>, pool: seq<string>, j: nat)
    requires 0 < j < |args|
    ensures var k := TakeCount(args[0].length, |pool|);
      && Consumed(args, pool)[j] == Consumed(args[1..], pool[k..])[j - 1]
      && Offset(args, pool, j) == k + Offset(args[1..], pool[k..], j - 1)
      && args[1..][j - 1] == args[j]
  {
    var k := TakeCount(args[0].length, |pool|);
    assert Consumed(args, pool) == [pool[..k]] + Consumed(args[1..], pool[k..]);
  }

  /** The tokens an argument of `length` takes when `off` tokens are already gone. */
  function Window(pool: seq<string>, off: nat, length: int): seq<string>
    requires off <= |pool|
  {
    pool[off..off + TakeCount(length, |pool| - off)]
  }

  lemma WindowShift(pool: seq<string>, k: nat, off: nat, length: int)
    requires k + off <= |pool|
    ensures Window(pool[k..], off, length) == Window(pool, k + off, length)
  {
    var t := TakeCount(length, |pool| - k - off);
    assert pool[k..][off..off + t] == pool[k + off..k + off + t];
  }

  /**
   An unbounded argument takes the rest of the pool: every later argument takes no
   token, so its value is `null`.
   */
  lemma {:induction false} UnboundedTakesRest(args: seq<Argument>, pool: seq<string>, j: nat)
    requires j < |args| && args[j].length == Unbounded
    ensures Flatten(Consumed(args, pool)) == pool
    ensures forall j' :: j < j' < |args| ==> Consumed(args, pool)[j'] == []
  {
    var k := TakeCount(args[0].length, |pool|);
    var rest := Consumed(args[1..], pool[k..]);
    assert Consumed(args, pool) == [pool[..k]] + rest;
    FlattenCons(pool[..k], rest);
    if j == 0 {
      assert k == |pool|;
      NothingLeft(args[1..], pool[k..]);
    } else {
      UnboundedTakesRest(args[1..], pool[k..], j - 1);
      assert pool[..k] + pool[k..] == pool;
    }
  }

  /** With an empty pool every argument takes nothing. */
  lemma {:induction false} NothingLeft(args: seq<Argument>, pool: seq<string>)
    requires pool == []
    ensures forall j :: 0 <= j < |args| ==> Consumed(args, pool)[j] == []
    ensures Flatten(Consumed(args, pool)) == []
  {
    if |args| > 0 {
      NothingLeft(args[1..], pool);
      var rest := Consumed(args[1..], pool);
      assert Consumed(args, pool) == [[]] + rest;
      FlattenCons([], rest);
    }
  }

  /** No later argument reuses the name of argument j, so its value is the one that stays. */
  predicate LastWithName(args: seq<Argument>, j: int)
    requires 0 <= j < |args|
  {
    forall j' :: j < j' < |args| ==> args[j'].name != args[j].name
  }

  /**
   The phase 2 loop gives every argument the value of its slice, a later argument with
   the same name overwriting an earlier one; names not declared keep their entry.
   */
  lemma {:induction false} AssignValues(args: seq<Argument>, pool: seq<string>, acc: map<string, Option<string>>)
    ensures forall j :: 0 <= j < |args| && LastWithName(args, j) ==>
      args[j].name in AssignArguments(args, pool, acc) &&
      AssignArguments(args, pool, acc)[args[j].name] == Entry(Consumed(args, pool)[j])
    ensures forall name :: name in acc && name !in ArgumentNames(args) ==>
      name in AssignArguments(args, pool, acc) && AssignArguments(args, pool, acc)[name] == acc[name]
  {
    if |args| > 0 {
      var k := TakeCount(args[0].length, |pool|);
      var acc' := acc[args[0].name := Entry(pool[..k])];
      var rest := Consumed(args[1..], pool[k..]);
      AssignValues(args[1..], pool[k..], acc');
      AssignKeys(args[1..], pool[k..], acc');
      assert Consumed(args, pool) == [pool[..k]] + rest;
      assert AssignArguments(args, pool, acc) == AssignArguments(args[1..], pool[k..], acc');
      forall j | 0 <= j < |args| && LastWithName(args, j)
        ensures args[j].name in AssignArguments(args, pool, acc)
        ensures AssignArguments(args, pool, acc)[args[j].name] == Entry(Consumed(args, pool)[j])
      {
        if j == 0 {
          forall a | a in args[1..]
            ensures a.name != args[0].name
          {
            var b :| 0 <= b < |args[1..]| && args[1..][b] == a;
            assert args[b + 1] == a;
          }
          assert args[0].name !in ArgumentNames(args[1..]);
        } else {
          assert args[1..][j - 1] == args[j];
          assert LastWithName(args[1..], j - 1);
        }
      }
      forall name | name in acc && name !in ArgumentNames(args)
        ensures name in AssignArguments(args, pool, acc)
        ensures AssignArguments(args, pool, acc)[name] == acc[name]
      {
        assert args[0] in args;
        forall a | a in args[1..]
          ensures a in args
        {
        }
      }
    }
  }

  /** Every argument that is the last of its name holds its window of the pool, `null` when that joins to "". */
  lemma AssignWindows(args: seq<Argument>, pool: seq<string>)
    ensures forall j :: 0 <= j < |args| && LastWithName(args, j) ==>
              args[j].name in AssignArguments(args, pool, map[]) &&
              AssignArguments(args, pool, map[])[args[j].name]
                == Entry(Window(pool, Offset(args, pool, j), args[j].length))
  {
    AssignValues(args, pool, map[]);
    forall j | 0 <= j < |args|
      ensures Consumed(args, pool)[j] == Window(pool, Offset(args, pool, j), args[j].length)
    {
      ConsumedSlice(args, pool, j);
    }
  }

  /** Every flag whose first marker sits at `j` holds what that marker captures. */
  lemma ParseFlagValues(bp: Blueprint, tokens: seq<string>)
    ensures forall j :: 0 <= j < |tokens| && OpensCapture(bp, tokens, j) ==>
              var name := MarkerName(tokens[j]).value;
              name in Parse(bp, tokens).flags &&
              Parse(bp, tokens).flags[name] == FlagValue(tokens, j, OpenedFlag(bp, tokens, j))
  {
    ScanFlagsSpec(bp, tokens, |tokens|);
  }

  /**
   `parse` against its declarative reading: every flag whose first marker sits at `j`
   holds what that marker captures, and every argument (the last one of its name) holds
   its window of the pool, `null` when the window joins to "".
   */
  lemma ParseValues(bp: Blueprint, tokens: seq<string>)
    ensures forall j :: 0 <= j < |tokens| && OpensCapture(bp, tokens, j) ==>
              var name := MarkerName(tokens[j]).value;
              name in Parse(bp, tokens).flags &&
              Parse(bp, tokens).flags[name] == FlagValue(tokens, j, OpenedFlag(bp, tokens, j))
    ensures forall j :: 0 <= j < |bp.arguments| && LastWithName(bp.arguments, j) ==>
              var pool := ParsePool(bp, tokens);
              bp.arguments[j].name in Parse(bp, tokens).arguments &&
              Parse(bp, tokens).arguments[bp.arguments[j].name]
                == Entry(Window(pool, Offset(bp.arguments, pool, j), bp.arguments[j].length))
  {
    ParseFlagValues(bp, tokens);
    AssignWindows(bp.arguments, ParsePool(bp, tokens));
  }
}

=== FILE: phpint.dfy ===
/**
 This module models PHP's `(int)` cast of a string as used on length tags, and the
 decimal rendering of a natural number that the cast inverts.
 */
module PhpInt {

  /** PHP_INT_MAX and PHP_INT_MIN on a 64-bit build. */
  const MaxInt64: int := 0x7FFF_FFFF_FFFF_FFFF
  const MinInt64: int := -0x8000_0000_0000_0000

  predicate IsDigit(c: char) {
    '0' <= c <= '9'
  }

  predicate IsDigits(s: string) {
    forall i :: 0 <= i < |s| ==> IsDigit(s[i])
  }

  function DigitValue(c: char): nat
    requires IsDigit(c)
  {
    (c as int) - ('0' as int)
  }

  function DigitChar(d: nat): (c: char)
    requires d < 10
    ensures IsDigit(c) && DigitValue(c) == d
  {
    (('0' as int) + d) as char
  }

  /** The value of a string of decimal digits, most significant first (empty is 0). */
  function DecimalValue(ds: string): nat
    requires IsDigits(ds)
    decreases |ds|
  {
    if |ds| == 0 then 0 else 10 * DecimalValue(ds[..|ds| - 1]) + DigitValue(ds[|ds| - 1])
  }

  /** The shortest decimal rendering of `n`; reading it back gives `n`. */
  function Digits(n: nat): (ds: string)
    ensures |ds| >= 1 && IsDigits(ds)
    ensures DecimalValue(ds) == n
    ensures |ds| > 1 ==> ds[0] != '0'
    decreases n
  {
    if n < 10 then [DigitChar(n)]
    else
      var ds := Digits(n / 10) + [DigitChar(n % 10)];
      assert ds[..|ds| - 1] == Digits(n / 10);
      ds
  }

  /** The whitespace PHP skips before a numeric string: space, tab, LF, CR, VT, FF. */
  predicate IsNumericSpace(c: char) {
    c == ' ' || c == '\t' || c == '\n' || c == '\r' || c == '\U{B}' || c == '\U{C}'
  }

  /** `s` without its leading numeric whitespace. */
  function SkipSpace(s: string): (r: string)
    ensures |r| <= |s| && r == s[|s| - |r|..]
    ensures forall i :: 0 <= i < |s| - |r| ==> IsNumericSpace(s[i])
    ensures |r| > 0 ==> !IsNumericSpace(r[0])
  {
    if |s| > 0 && IsNumericSpace(s[0]) then SkipSpace(s[1..]) else s
  }

  /** The longest prefix of `s` made of decimal digits. */
  function LeadingDigits(s: string): (ds: string)
    ensures IsDigits(ds) && |ds| <= |s| && ds == s[..|ds|]
    ensures |ds| < |s| ==> !IsDigit(s[|ds|])
  {
    if |s| > 0 && IsDigit(s[0]) then
      var rest := LeadingDigits(s[1..]);
      assert [s[0]] + rest == s[..|rest| + 1];
      [s[0]] + rest
    else ""
  }

  /** PHP saturates an out-of-range numeric string at the 64-bit bounds. */
  function Saturate(v: int): (r: int)
    ensures MinInt64 <= r <= MaxInt64
    ensures MinInt64 <= v <= MaxInt64 ==> r == v
  {
    if v > MaxInt64 then MaxInt64 else if v < MinInt64 then MinInt64 else v
  }

  /**
   `(int) $s`: leading whitespace is skipped, an optional sign is read, then the
   longest run of digits; anything after it is ignored and no digits give 0.
   */
  function IntCast(s: string): (v: int)
    ensures MinInt64 <= v <= MaxInt64
  {
    var t := SkipSpace(s);
    if |t| > 0 && (t[0] == '-' || t[0] == '+') then
      var m: int := DecimalValue(LeadingDigits(t[1..]));
      Saturate(if t[0] == '-' then -m else m)
    else
      Saturate(DecimalValue(LeadingDigits(t)))
  }

  /** A digit string is its own leading digit run. */
  lemma {:induction false} LeadingDigitsOfDigits(s: string)
    requires IsDigits(s)
    ensures LeadingDigits(s) == s
  {
    if |s| > 0 {
      LeadingDigitsOfDigits(s[1..]);
      assert [s[0]] + s[1..] == s;
    }
  }

  /** On a plain digit string the cast is its decimal value, saturated. */
  lemma IntCastOfDigits(s: string)
    requires IsDigits(s)
    ensures IntCast(s) == Saturate(DecimalValue(s))
  {
    LeadingDigitsOfDigits(s);
    if |s| > 0 {
      assert IsDigit(s[0]);
      assert !IsNumericSpace(s[0]) && s[0] != '-' && s[0] != '+';
    }
    assert SkipSpace(s) == s;
  }

  /** The cast reads back every decimal rendering that fits in 64 bits. */
  lemma IntCastDigits(n: nat)
    requires n <= MaxInt64
    ensures IntCast(Digits(n)) == n
  {
    IntCastOfDigits(Digits(n));
  }
}

=== FILE: scenarios.dfy ===
/**
 Worked invocations: concrete usage strings and token lists, and what the model
 makes of them.
 */
module Scenarios {
  import opened Wrappers
  import opened Strings
  import opened PhpInt
  import opened Blueprints
  import opened Matcher
  import opened Durations

  const BanUsage: string := "ban player(1) -reason()"

  const BanArguments: seq<Argument> := [Argument("player", 1, false)]

  const BanFlags: seq<Flag> := [Flag("reason", Unbounded)]

  lemma BanChunks()
    ensures RenderArguments(BanArguments) == ["player(1)"]
    ensures RenderFlags(BanFlags) == ["-reason()"]
  {
    assert Digits(1) == "1";
    assert RenderLength(1) == "(1)";
    assert RenderArgument(BanArguments[0]) == "player(1)";
    assert RenderFlag(BanFlags[0]) == "-reason()";
  }

  lemma BanRendered()
    ensures RenderUsage("ban", BanArguments, BanFlags) == BanUsage
  {
    BanChunks();
    var chunks := RenderArguments(BanArguments) + RenderFlags(BanFlags);
    assert chunks == ["player(1)", "-reason()"];
    var parts := ["ban"] + chunks;
    assert parts[1..] == chunks;
    JoinTwo("player(1)", "-reason()");
    assert Join(parts, ' ') == "ban" + " " + ("player(1)" + " " + "-reason()");
    BanText();
  }

  lemma BanText()
    ensures "ban" + " " + ("player(1)" + " " + "-reason()") == BanUsage
  {
  }

  lemma JoinTwo(a: string, b: string)
    ensures Join([a, b], ' ') == a + " " + b
  {
    assert [a, b][1..] == [b];
  }

  lemma BanRenderable()
    ensures RenderableArgument(BanArguments[0]) && RenderableFlag(BanFlags[0])
  {
    assert PlainName("player") && PlainName("reason");
    assert "player"[..1][0] == 'p';
  }

  /** `ban player(1) -reason()` declares one required argument of length 1 and one unbounded flag. */
  lemma BanUsageBlueprint()
    ensures GenerateBlueprint(BanUsage) == Blueprint(BanArguments, BanFlags, BanUsage)
  {
    BanRendered();
    BanRenderable();
    GenerateRendered("ban", BanArguments, BanFlags);
  }

  /**
   `ban player`: the chunk `player` has no length tag. The comments at lines 23-27 intend
   an unbounded argument named `player`; the code as written throws instead, at the
   `substr` of line 40, since the chunk holds no NUL either.
   */
  lemma BanPlayerThrows()
    ensures GenerateBlueprintAsWritten("ban player") == None
    ensures GenerateBlueprint("ban player") == Blueprint([Argument("player", Unbounded, false)], [], "ban player")
  {
    BanPlayerChunks();
    PlayerUntagged();
    var chunks := Split("ban player", ' ');
    assert 1 < |chunks| && ThrowsAsWritten(chunks[1]);
    GenerateFromChunks("ban player", ["player"]);
    PlayerDescribed();
  }

  lemma BanPlayerChunks()
    ensures Split("ban player", ' ') == ["ban", "player"]
    ensures Split("ban player", ' ')[1..] == ["player"]
  {
    SplitTwo("ban player", "ban", "player", ' ');
  }

  lemma PlayerDescribed()
    ensures ArgumentsOf(Describe(["player"])) == [Argument("player", Unbounded, false)]
    ensures FlagsOf(Describe(["player"])) == []
  {
    PlayerUntagged();
    var ds := Describe(["player"]);
    assert ds == [ArgumentDescriptor(Argument("player", Unbounded, false))];
    assert ds[1..] == [];
  }

  lemma PlayerUntagged()
    ensures !HasTag("player") && ThrowsAsWritten("player")
    ensures DescribeChunk("player") == ArgumentDescriptor(Argument("player", Unbounded, false))
  {
    var s := "player";
    forall a | 0 <= a < |s|
      ensures s[a] != '(' && s[a] != '\0'
    {
    }
    StartsWithChar(s, '-');
    StartsWithChar(s, '?');
    assert "-" == ['-'] && "?" == ['?'];
    UntaggedChunk(s);
  }

  /**
   `a`, NUL, `b` as a chunk: it has no length tag, so the intended reading is the whole
   chunk, unbounded; as written, `strrpos` finds the NUL and the chunk reads as `a` of length 0.
   */
  lemma NulChunkAsWritten()
    ensures NameAndLengthAsWritten("a\0b") == Some(("a", 0))
    ensures NameAndLength("a\0b") == ("a\0b", Unbounded)
  {
    var s := "a\0b";
    forall a | 0 <= a < |s|
      ensures s[a] != '('
    {
    }
    assert s[1] == '\0';
    UntaggedNulChunk(s);
    var name := NameAndLengthAsWritten(s).value.0;
    assert |name| == 1 by { assert s[0] != '\0' && s[2] != '\0'; }
    assert s[..1] == "a";
  }

  /**
   `?a`, NUL, `b` as the only chunk after the command name: as written it declares the
   optional argument `a` of length 0, since the name is cut at the NUL and then loses its `?`.
   */
  lemma NulOptionalArgument()
    ensures DescribeAsWritten(["?a\0b"]) == Some([ArgumentDescriptor(Argument("a", 0, true))])
  {
    var s := "?a\0b";
    forall a | 0 <= a < |s|
      ensures s[a] != '('
    {
    }
    assert s[2] == '\0';
    UntaggedNulChunk(s);
    var name := NameAndLengthAsWritten(s).value.0;
    assert |name| == 2 by { assert s[0] != '\0' && s[1] != '\0' && s[3] != '\0'; }
    assert name == "?a";
    StartsWithChar(s, '-');
    StartsWithChar(name, '?');
    assert "-" == ['-'] && "?" == ['?'];
    var r := DescribeAsWritten([s]);
    assert r.Some? && |r.value| == 1;
    var d := r.value[0];
    assert d == Classify(s, name, 0);
    assert "?a" == "?" + d.argument.name;
    assert r.value == [d];
  }

  const BanTokens: seq<string> := ["Steve", "-reason", "being", "mean"]

  function Ban(): Blueprint {
    Blueprint(BanArguments, BanFlags, BanUsage)
  }

  /** Only the token at index 1 opens a capture, and it opens `reason`. */
  lemma BanMarkers()
    ensures OpensCapture(Ban(), BanTokens, 1) && OpenedFlag(Ban(), BanTokens, 1) == Flag("reason", Unbounded)
    ensures MarkerName(BanTokens[1]) == Some("reason")
    ensures forall j :: 0 <= j < |BanTokens| && j != 1 ==> MarkerName(BanTokens[j]).None?
  {
    assert BanTokens[1] == "-" + "reason";
    assert GetFlag(Ban(), "reason") == Some(Flag("reason", Unbounded));
    assert BanTokens[..1] == ["Steve"];
    forall j | 0 <= j < |BanTokens| && j != 1
      ensures !StartsWith(BanTokens[j], "-")
    {
      assert BanTokens[j][..1][0] != '-';
    }
  }

  /** `-reason()` captures every token after its marker. */
  lemma BanReason()
    ensures FlagValue(BanTokens, 1, Flag("reason", Unbounded)) == "being mean"
  {
    FlagValueWindow(BanTokens, 1, Flag("reason", Unbounded));
    assert BanTokens[2..] == ["being", "mean"];
    JoinTwo("being", "mean");
  }

  /** Phase 1 step by step: only `-reason` changes the state. */
  lemma BanScan()
    ensures ScanFlags(Ban(), BanTokens, |BanTokens|)
            == FlagScan(map["reason" := "being mean"], FlagKeys(BanTokens, 1, Flag("reason", Unbounded)))
  {
    var bp := Ban();
    var f := Flag("reason", Unbounded);
    BanMarkers();
    BanReason();
    var st1 := ScanFlags(bp, BanTokens, 1);
    assert st1 == FlagScan(map[], {});
    var st2 := ScanFlags(bp, BanTokens, 2);
    assert st2 == ScanToken(bp, BanTokens, st1, 1);
    assert st2 == FlagScan(map["reason" := "being mean"], FlagKeys(BanTokens, 1, f));
    assert ScanFlags(bp, BanTokens, 3) == st2;
    assert ScanFlags(bp, BanTokens, 4) == st2;
  }

  /** Phase 1 removes the marker and everything after it, leaving `Steve`. */
  lemma BanPool()
    ensures ParsePool(Ban(), BanTokens) == ["Steve"]
  {
    BanScan();
    var removed := FlagKeys(BanTokens, 1, Flag("reason", Unbounded));
    FlagKeysWindow(BanTokens, 1, Flag("reason", Unbounded));
    assert 0 !in removed && 1 in removed && 2 in removed && 3 in removed;
    assert ParsePool(Ban(), BanTokens) == Pool(BanTokens, removed);
    BanRemaining(removed);
  }

  lemma BanRemaining(removed: set<int>)
    requires 0 !in removed && 1 in removed && 2 in removed && 3 in removed
    ensures Pool(BanTokens, removed) == ["Steve"]
  {
    assert Remaining(4, removed, 3) == [];
    assert Remaining(4, removed, 2) == [];
    assert Remaining(4, removed, 1) == [];
    assert Remaining(4, removed, 0) == [0];
  }

  /** `ban Steve -reason being mean`: player is `Steve`, reason is `being mean`. */
  lemma BanParse()
    ensures Parse(Ban(), BanTokens) == ParsedCommand(Ban(), map["player" := Some("Steve")], map["reason" := "being mean"])
  {
    BanScan();
    BanPool();
    var args := BanArguments;
    assert TakeCount(1, 1) == 1;
    assert Entry(["Steve"]) == Some("Steve");
    assert AssignArguments(args, ["Steve"], map[]) == AssignArguments([], [], map["player" := Some("Steve")]);
  }

  /** `ban Steve`: the flag is absent, not empty. */
  lemma BanParseWithoutReason()
    ensures Parse(Ban(), ["Steve"]) == ParsedCommand(Ban(), map["player" := Some("Steve")], map[])
  {
    var bp := Ban();
    var tokens := ["Steve"];
    assert !StartsWith("Steve", "-") by {
      assert "Steve"[..1][0] == 'S';
    }
    assert ScanFlags(bp, tokens, 1) == FlagScan(map[], {});
    assert Remaining(1, {}, 1) == [];
    assert Remaining(1, {}, 0) == [0];
    assert ParsePool(bp, tokens) == ["Steve"];
    assert TakeCount(1, 1) == 1;
    assert Entry(["Steve"]) == Some("Steve");
    assert AssignArguments(BanArguments, ["Steve"], map[]) == AssignArguments([], [], map["player" := Some("Steve")]);
  }

  const SayUsage: string := "say message()"

  function Say(): Blueprint {
    Blueprint([Argument("message", Unbounded, false)], [], SayUsage)
  }

  /** No token of `say a b c` is a marker, so the pool is the whole input. */
  lemma SayPool()
    ensures ParsePool(Say(), ["a", "b", "c"]) == ["a", "b", "c"]
  {
    var bp := Say();
    var tokens := ["a", "b", "c"];
    assert ScanFlags(bp, tokens, 1).removed == {};
    assert ScanFlags(bp, tokens, 2).removed == {};
    assert ScanFlags(bp, tokens, 3).removed == {};
    PoolUntouched(tokens);
  }

  /** An unbounded argument takes every remaining token: `say a b c` gives `a b c`. */
  lemma SayParse()
    ensures Parse(Say(), ["a", "b", "c"]).arguments == map["message" := Some("a b c")]
  {
    var tokens := ["a", "b", "c"];
    SayPool();
    SayAssign(ParsePool(Say(), tokens));
  }

  lemma SayAssign(pool: seq<string>)
    requires pool == ["a", "b", "c"]
    ensures AssignArguments(Say().arguments, pool, map[]) == map["message" := Some("a b c")]
  {
    assert TakeCount(Unbounded, 3) == 3;
    assert pool[..3] == pool;
    SayJoin();
  }

  lemma SayJoin()
    ensures Entry(["a", "b", "c"]) == Some("a b c")
  {
    var tokens := ["a", "b", "c"];
    JoinTwo("b", "c");
    assert tokens[1..] == ["b", "c"];
    assert Join(tokens, ' ') == "a b c";
  }

  const KickUsage: string := "kick -reason(1) -silent(0)"

  function Kick(): Blueprint {
    Blueprint([], [Flag("reason", 1), Flag("silent", 0)], KickUsage)
  }

  lemma KickTokens()
    ensures MarkerName("-reason") == Some("reason") && MarkerName("-silent") == Some("silent")
    ensures GetFlag(Kick(), "reason") == Some(Flag("reason", 1))
    ensures GetFlag(Kick(), "silent") == Some(Flag("silent", 0))
    ensures FlagValue(["-reason", "-silent"], 0, Flag("reason", 1)) == "-silent"
    ensures FlagValue(["-reason", "-silent"], 1, Flag("silent", 0)) == ""
  {
    var tokens := ["-reason", "-silent"];
    assert "-reason" == "-" + "reason" && "-silent" == "-" + "silent";
    assert ArraySlice(tokens, 1, 1) == ["-silent"];
    assert ArraySlice(tokens, 2, 0) == [];
  }

  lemma KickFirstStep()
    ensures ScanFlags(Kick(), ["-reason", "-silent"], 1).flags == map["reason" := "-silent"]
  {
    KickTokens();
  }

  /**
   Phase 1 visits every original index: `-silent`, captured as the value of `-reason`,
   still opens its own flag.
   */
  lemma KickParse()
    ensures Parse(Kick(), ["-reason", "-silent"]).flags == map["reason" := "-silent", "silent" := ""]
  {
    var bp := Kick();
    var tokens := ["-reason", "-silent"];
    KickTokens();
    KickFirstStep();
    var st1 := ScanFlags(bp, tokens, 1);
    assert ScanFlags(bp, tokens, 2) == ScanToken(bp, tokens, st1, 1);
  }

  /** `1d12h` is one day and twelve hours. */
  lemma DayAndHalf(d: string)
    requires d == "1d12h"
    ensures ParseDuration(d) == Relative("1 day 12 hour")
  {
    var ps := [Piece("1", 3), Piece("12", 4)];
    DayAndHalfCompact(ps);
    DayAndHalfWellFormed(ps);
    CompactDuration(ps);
    DayAndHalfWords(ps);
  }

  lemma DayAndHalfCompact(ps: seq<Piece>)
    requires ps == [Piece("1", 3), Piece("12", 4)]
    ensures Compact(ps, Symbols) == "1d12h"
  {
    SymbolsTable();
    assert Symbols[3] == 'd' && Symbols[4] == 'h';
    assert ps == [ps[0]] + ([ps[1]] + []);
    CompactCons(ps[1], [], Symbols);
    CompactCons(ps[0], [ps[1]], Symbols);
  }

  lemma DayAndHalfWellFormed(ps: seq<Piece>)
    requires ps == [Piece("1", 3), Piece("12", 4)]
    ensures WellFormed(ps, Symbols, 0)
    ensures forall i :: 0 <= i < |ps| ==> |ps[i].count| > 0 && IsDigits(ps[i].count)
  {
    SymbolsTable();
    forall i, c | 0 <= i < |ps| && c in ps[i].count
      ensures c !in Symbols
    {
      assert c == '1' || c == '2';
      assert Symbols == ['y', 'M', 'w', 'd', 'h', 'm'];
    }
  }

  lemma DayAndHalfWords(ps: seq<Piece>)
    requires ps == [Piece("1", 3), Piece("12", 4)]
    ensures Join(Words(ps), ' ') == "1 day 12 hour"
  {
    SymbolsTable();
    assert ps[1..][1..] == [];
    assert Word(ps[0]) == "day" && Word(ps[1]) == "hour";
    assert "1" + " " + "day" == "1 day";
    assert "12" + " " + "hour" == "12 hour";
    assert Words(ps[1..][1..]) == [];
    assert Words(ps[1..]) == ["12 hour"];
    assert Words(ps) == ["1 day", "12 hour"];
    JoinTwo("1 day", "12 hour");
  }

  /**
   Units are tried in the fixed order y, M, w, d, h, m, so an hour written before a
   day ends up inside the day's count: `1h2d` gives `1h2 day`.
   */
  lemma OutOfOrderUnits(d: string)
    requires d == "1h2d"
    ensures ParseDuration(d) == Relative("1h2 day")
  {
    OutOfOrderPieces(d);
    assert PhraseOf([Piece("1h2", 3)]) == "1h2 day" + " ";
    TrimTrailingSpace("1h2 day");
  }

  lemma OutOfOrderPieces(d: string)
    requires d == "1h2d"
    ensures Pieces(d) == [Piece("1h2", 3)]
  {
    SymbolsTable();
    assert d[..3] == "1h2" && d[4..] == "";
    assert IndexOf(d, Symbols[0]) == None;
    assert IndexOf(d, Symbols[1]) == None;
    assert IndexOf(d, Symbols[2]) == None;
    IndexAfterPrefix("1h2", 'd', "");
    assert d == "1h2" + ['d'] + "";
    CutMissing(d, Symbols, 0);
    CutMissing(d, Symbols, 1);
    CutMissing(d, Symbols, 2);
    CutFound(d, Symbols, 3, 3);
    NothingToCut("", Symbols, 4);
  }

  /**
   Text after the last unit's symbol names no unit and is dropped: `1d2h3` is one day
   and two hours, and the trailing `3` goes nowhere.
   */
  lemma TrailingCountDropped(d: string)
    requires d == "1d2h3"
    ensures Pieces(d) == [Piece("1", 3), Piece("2", 4)]
    ensures ParseDuration(d) == Relative("1 day 2 hour")
  {
    var ps := [Piece("1", 3), Piece("2", 4)];
    TrailingCountPieces(d);
    SymbolsTable();
    PhraseTrimmed(ps);
    TrailingCountWords(ps);
  }

  lemma TrailingCountWords(ps: seq<Piece>)
    requires ps == [Piece("1", 3), Piece("2", 4)]
    ensures Join(Words(ps), ' ') == "1 day 2 hour"
  {
    SymbolsTable();
    assert ps[1..][1..] == [];
    assert Word(ps[0]) == "day" && Word(ps[1]) == "hour";
    assert "1" + " " + "day" == "1 day";
    assert "2" + " " + "hour" == "2 hour";
    assert Words(ps[1..][1..]) == [];
    assert Words(ps[1..]) == ["2 hour"];
    assert Words(ps) == ["1 day", "2 hour"];
    JoinTwo("1 day", "2 hour");
  }

  lemma TrailingCountPieces(d: string)
    requires d == "1d2h3"
    ensures Pieces(d) == [Piece("1", 3), Piece("2", 4)]
  {
    TrailingSkips(d);
    TrailingDay(d);
    TrailingHour();
  }

  /** No year, month or week symbol in `1d2h3`. */
  lemma TrailingSkips(d: string)
    requires d == "1d2h3"
    ensures Cut(d, Symbols, 0) == Cut(d, Symbols, 3)
  {
    SymbolsTable();
    assert Symbols[0] == 'y' && Symbols[1] == 'M' && Symbols[2] == 'w';
    assert IndexOf(d, Symbols[0]) == None;
    assert IndexOf(d, Symbols[1]) == None;
    assert IndexOf(d, Symbols[2]) == None;
    CutMissing(d, Symbols, 0);
    CutMissing(d, Symbols, 1);
    CutMissing(d, Symbols, 2);
  }

  lemma TrailingDay(d: string)
    requires d == "1d2h3"
    ensures Cut(d, Symbols, 3) == [Piece("1", 3)] + Cut("2h3", Symbols, 4)
  {
    SymbolsTable();
    IndexAfterPrefix("1", 'd', "2h3");
    assert d == "1" + ['d'] + "2h3";
    CutFound(d, Symbols, 3, 1);
    assert d[..1] == "1" && d[2..] == "2h3";
  }

  lemma TrailingHour()
    ensures Cut("2h3", Symbols, 4) == [Piece("2", 4)]
  {
    var rest := "2h3";
    SymbolsTable();
    IndexAfterPrefix("2", 'h', "3");
    assert rest == "2" + ['h'] + "3";
    CutFound(rest, Symbols, 4, 1);
    assert rest[..1] == "2" && rest[2..] == "3";
    NothingToCut("3", Symbols, 5);
  }

  /** A bare number such as `90` names no unit, so it resolves to now. */
  lemma DigitsOnlyDuration(d: string)
    requires IsDigits(d)
    ensures ParseDuration(d) == Now
  {
    forall c | c in d
      ensures c !in Symbols
    {
      assert IsDigit(c);
      SymbolsTable();
      assert Symbols == ['y', 'M', 'w', 'd', 'h', 'm'];
    }
    DurationNow(d);
  }
}

=== FILE: strings.dfy ===
/**
 This module models the PHP string and array primitives the parser relies on:
 `explode` and `implode` over one separator character, `strpos(...) === 0`,
 `array_search` / the first occurrence of a value, `strrpos`, and `trim`.
 */
module Strings {
  import opened Wrappers

  /** `strpos($s, $p) === 0`: `s` begins with `p`. */
  predicate StartsWith(s: string, p: string) {
    |p| <= |s| && s[..|p|] == p
  }

  /** Starting with a one-character prefix is a test of the first character. */
  lemma StartsWithChar(s: string, c: char)
    ensures StartsWith(s, [c]) <==> |s| > 0 && s[0] == c
  {
    if |s| > 0 && s[0] == c {
      assert s[..1] == [c];
    }
  }

  /** `implode($sep, $parts)`: the parts glued together with `sep` between neighbours. */
  function Join(parts: seq<string>, sep: char): string
    decreases |parts|
  {
    if |parts| == 0 then ""
    else if |parts| == 1 then parts[0]
    else parts[0] + [sep] + Join(parts[1..], sep)
  }

  /** `explode($sep, $s)`: the maximal runs of `s` between separators, empty runs kept. */
  function Split(s: string, sep: char): (chunks: seq<string>)
    ensures |chunks| >= 1
    ensures forall i :: 0 <= i < |chunks| ==> sep !in chunks[i]
    decreases |s|
  {
    if |s| == 0 then [""]
    else
      var rest := Split(s[1..], sep);
      if s[0] == sep then [""] + rest
      else [[s[0]] + rest[0]] + rest[1..]
  }

  /** Gluing the chunks of `explode` back together gives the original string. */
  lemma {:induction false} JoinSplit(s: string, sep: char)
    ensures Join(Split(s, sep), sep) == s
    decreases |s|
  {
    if |s| > 0 {
      var rest := Split(s[1..], sep);
      JoinSplit(s[1..], sep);
      if s[0] == sep {
        assert Join([""] + rest, sep) == "" + [sep] + Join(rest, sep);
        assert s == [s[0]] + s[1..];
      } else {
        var parts := [[s[0]] + rest[0]] + rest[1..];
        if |rest| == 1 {
          assert Join(parts, sep) == [s[0]] + rest[0];
        } else {
          assert parts[1..] == rest[1..];
          assert Join(parts, sep) == [s[0]] + rest[0] + [sep] + Join(rest[1..], sep);
          assert Join(rest, sep) == rest[0] + [sep] + Join(rest[1..], sep);
        }
        assert s == [s[0]] + s[1..];
      }
    }
  }

  /** A separator-free prefix followed by the separator becomes exactly one chunk. */
  lemma {:induction false} SplitAfterChunk(a: string, t: string, sep: char)
    requires sep !in a
    ensures Split(a + [sep] + t, sep) == [a] + Split(t, sep)
    decreases |a|
  {
    var s := a + [sep] + t;
    if |a| == 0 {
      assert s[1..] == t;
    } else {
      assert s[1..] == a[1..] + [sep] + t;
      SplitAfterChunk(a[1..], t, sep);
      assert [a[0]] + a[1..] == a;
    }
  }

  /** A separator-free string is a single chunk. */
  lemma {:induction false} SplitNoSeparator(a: string, sep: char)
    requires sep !in a
    ensures Split(a, sep) == [a]
    decreases |a|
  {
    if |a| > 0 {
      SplitNoSeparator(a[1..], sep);
      assert [a[0]] + a[1..] == a;
    }
  }

  /** `explode` of two separator-free words around one separator gives the two words. */
  lemma SplitTwo(u: string, a: string, b: string, sep: char)
    requires u == a + [sep] + b && sep !in a && sep !in b
    ensures Split(u, sep) == [a, b]
  {
    SplitAfterChunk(a, b, sep);
    SplitNoSeparator(b, sep);
  }

  /** `explode` undoes `implode` when no part contains the separator. */
  lemma {:induction false} SplitJoin(parts: seq<string>, sep: char)
    requires |parts| >= 1
    requires forall i :: 0 <= i < |parts| ==> sep !in parts[i]
    ensures Split(Join(parts, sep), sep) == parts
    decreases |parts|
  {
    if |parts| == 1 {
      SplitNoSeparator(parts[0], sep);
    } else {
      SplitJoin(parts[1..], sep);
      SplitAfterChunk(parts[0], Join(parts[1..], sep), sep);
      assert [parts[0]] + parts[1..] == parts;
    }
  }

  /** `implode` gives the empty string exactly for no parts or one empty part. */
  lemma JoinEmpty(parts: seq<string>, sep: char)
    ensures Join(parts, sep) == "" <==> parts == [] || parts == [""]
  {
    if |parts| >= 2 {
      assert |Join(parts, sep)| >= 1;
    }
  }

  /** Joining a concatenation puts one separator between the two joins. */
  lemma {:induction false} JoinAppend(a: seq<string>, b: seq<string>, sep: char)
    requires |a| >= 1 && |b| >= 1
    ensures Join(a + b, sep) == Join(a, sep) + [sep] + Join(b, sep)
    decreases |a|
  {
    if |a| == 1 {
      assert (a + b)[1..] == b;
    } else {
      JoinAppend(a[1..], b, sep);
      assert (a + b)[1..] == a[1..] + b;
    }
  }

  /** The first index at or after `from` holding `c` (a regex scan for one character). */
  function FindFrom(s: string, c: char, from: nat): (r: Option<nat>)
    requires from <= |s|
    ensures r.Some? ==> from <= r.value < |s| && s[r.value] == c
    ensures r.Some? ==> forall k :: from <= k < r.value ==> s[k] != c
    ensures r.None? ==> forall k :: from <= k < |s| ==> s[k] != c
    decreases |s| - from
  {
    if from == |s| then None
    else if s[from] == c then Some(from)
    else FindFrom(s, c, from + 1)
  }

  /** `array_search($x, $s)` on a list: the first position holding `x`, if any. */
  function IndexOf<T(==)>(s: seq<T>, x: T): (r: Option<nat>)
    ensures r.Some? ==> r.value < |s| && s[r.value] == x && x !in s[..r.value]
    ensures r.None? <==> x !in s
  {
    if |s| == 0 then None
    else if s[0] == x then Some(0)
    else match IndexOf(s[1..], x)
      case None => None
      case Some(k) =>
        assert s[..k + 1] == [s[0]] + s[1..][..k];
        Some(k + 1)
  }

  /** `needle` occurs in `hay` starting at position `i`. */
  predicate OccursAt(hay: string, needle: string, i: int) {
    0 <= i && i + |needle| <= |hay| && hay[i..i + |needle|] == needle
  }

  /** `strrpos($hay, $needle)`: the start of the last occurrence of `needle`, searching down from `from`. */
  function LastIndexFrom(hay: string, needle: string, from: int): (r: Option<nat>)
    requires from <= |hay|
    ensures r.Some? ==> r.value <= from && OccursAt(hay, needle, r.value)
    ensures r.Some? ==> forall j :: r.value < j <= from ==> !OccursAt(hay, needle, j)
    ensures r.None? ==> forall j :: 0 <= j <= from ==> !OccursAt(hay, needle, j)
    decreases from + 1
  {
    if from < 0 then None
    else if OccursAt(hay, needle, from) then Some(from)
    else LastIndexFrom(hay, needle, from - 1)
  }

  /** `strrpos($hay, $needle)`: the start of the last occurrence of `needle` in `hay`. */
  function LastIndexOf(hay: string, needle: string): (r: Option<nat>)
    ensures r.Some? ==> OccursAt(hay, needle, r.value)
    ensures r.Some? ==> forall j :: r.value < j ==> !OccursAt(hay, needle, j)
    ensures r.None? ==> forall j :: !OccursAt(hay, needle, j)
  {
    LastIndexFrom(hay, needle, |hay|)
  }

  /** `strrpos` with a one-character needle: the last position holding that character. */
  lemma LastIndexOfChar(hay: string, c: char)
    ensures LastIndexOf(hay, [c]).None? <==> c !in hay
    ensures LastIndexOf(hay, [c]).Some? ==>
      var p := LastIndexOf(hay, [c]).value;
      p < |hay| && hay[p] == c && c !in hay[p + 1..]
  {
    forall j | 0 <= j < |hay|
      ensures OccursAt(hay, [c], j) <==> hay[j] == c
    {
      assert hay[j..j + 1] == [hay[j]];
    }
    match LastIndexOf(hay, [c])
    case None =>
    case Some(p) =>
      forall k | p < k < |hay|
        ensures hay[k] != c
      {
        assert !OccursAt(hay, [c], k);
      }
      var tail := hay[p + 1..];
      forall k | 0 <= k < |tail|
        ensures tail[k] != c
      {
        assert tail[k] == hay[p + 1 + k];
      }
  }

  /** The characters PHP's `trim` strips by default: space, tab, LF, CR, NUL and vertical tab. */
  predicate IsTrimmable(c: char) {
    c == ' ' || c == '\t' || c == '\n' || c == '\r' || c == '\0' || c == '\U{B}'
  }

  /** `ltrim`: the suffix left after dropping leading trimmable characters. */
  function TrimLeft(s: string): (r: string)
    ensures |r| <= |s| && r == s[|s| - |r|..]
    ensures forall i :: 0 <= i < |s| - |r| ==> IsTrimmable(s[i])
    ensures |r| > 0 ==> !IsTrimmable(r[0])
  {
    if |s| > 0 && IsTrimmable(s[0]) then TrimLeft(s[1..]) else s
  }

  /** `rtrim`: the prefix left after dropping trailing trimmable characters. */
  function TrimRight(s: string): (r: string)
    ensures |r| <= |s| && r == s[..|r|]
    ensures forall i :: |r| <= i < |s| ==> IsTrimmable(s[i])
    ensures |r| > 0 ==> !IsTrimmable(r[|r| - 1])
  {
    if |s| > 0 && IsTrimmable(s[|s| - 1]) then TrimRight(s[..|s| - 1]) else s
  }

  /** `r` is the infix of `s` starting at `a`, and everything around it is trimmable. */
  predicate TrimmedInfix(s: string, r: string, a: int) {
    && 0 <= a && a + |r| <= |s| && r == s[a..a + |r|]
    && (forall i :: 0 <= i < a ==> IsTrimmable(s[i]))
    && (forall i :: a + |r| <= i < |s| ==> IsTrimmable(s[i]))
  }

  /** `trim`: the longest infix with no trimmable character at either end. */
  function Trim(s: string): (r: string)
    ensures exists a :: TrimmedInfix(s, r, a)
    ensures |r| > 0 ==> !IsTrimmable(r[0]) && !IsTrimmable(r[|r| - 1])
  {
    var left := TrimLeft(s);
    var r := TrimRight(left);
    TrimBothSides(s, left, r);
    r
  }

  /** Stripping a trimmable prefix and then a trimmable suffix leaves an infix. */
  lemma TrimBothSides(s: string, left: string, r: string)
    requires |left| <= |s| && left == s[|s| - |left|..]
    requires forall i :: 0 <= i < |s| - |left| ==> IsTrimmable(s[i])
    requires |r| <= |left| && r == left[..|r|]
    requires forall i :: |r| <= i < |left| ==> IsTrimmable(left[i])
    ensures TrimmedInfix(s, r, |s| - |left|)
  {
    var a := |s| - |left|;
    assert s[a..][..|r|] == s[a..a + |r|];
    forall i | a + |r| <= i < |s|
      ensures IsTrimmable(s[i])
    {
      assert s[i] == left[i - a];
    }
  }

  /** `ltrim` of a string made only of trimmable characters leaves nothing. */
  lemma {:induction false} TrimLeftAll(s: string)
    requires forall i :: 0 <= i < |s| ==> IsTrimmable(s[i])
    ensures TrimLeft(s) == ""
    decreases |s|
  {
    if |s| > 0 {
      assert IsTrimmable(s[0]);
      TrimLeftAll(s[1..]);
    }
  }

  /** `trim` yields "" exactly for strings made only of trimmable characters. */
  lemma TrimEmpty(s: string)
    ensures Trim(s) == "" <==> forall i :: 0 <= i < |s| ==> IsTrimmable(s[i])
  {
    if forall i :: 0 <= i < |s| ==> IsTrimmable(s[i]) {
      TrimLeftAll(s);
    }
  }

  /** One trailing space is all `trim` removes from a string whose ends are not trimmable. */
  lemma TrimTrailingSpace(x: string)
    requires |x| > 0 && !IsTrimmable(x[0]) && !IsTrimmable(x[|x| - 1])
    ensures Trim(x + " ") == x
  {
    var s := x + " ";
    assert TrimLeft(s) == s;
    assert s[..|s| - 1] == x;
    assert TrimRight(s) == TrimRight(x);
  }

  /** The first and last characters of a join of non-empty parts. */
  lemma {:induction false} JoinEnds(parts: seq<string>, sep: char)
    requires |parts| > 0 && forall i :: 0 <= i < |parts| ==> |parts[i]| > 0
    ensures var j := Join(parts, sep);
      |j| > 0 && j[0] == parts[0][0] && j[|j| - 1] == parts[|parts| - 1][|parts[|parts| - 1]| - 1]
    decreases |parts|
  {
    if |parts| > 1 {
      JoinEnds(parts[1..], sep);
      assert parts[1..][|parts| - 2] == parts[|parts| - 1];
    }
  }

  /** Concatenation regroups freely. */
  lemma ConcatAssoc<T>(h: seq<T>, x: seq<T>, y: seq<T>)
    ensures h + (x + y) == (h + x) + y
  {
  }

  /** Concatenation regroups freely, four parts. */
  lemma Regroup<T>(p: seq<T>, l: seq<T>, c: seq<T>, r: seq<T>)
    ensures p + (l + c + r) == p + l + c + r
  {
  }

  /** The middle part of `p + l + c + r`, with one-element `l` and `r`, and the part before it. */
  lemma SliceParts<T>(p: seq<T>, l: seq<T>, c: seq<T>, r: seq<T>)
    requires |l| == 1 && |r| == 1
    ensures var s := p + l + c + r;
      s[..|p|] == p && s[|p| + 1..|s| - 1] == c
  {
    var s := p + l + c + r;
    assert s[..|p|] == p;
    assert s[|p| + 1..|s| - 1] == c;
  }

  /** A common head keeps a prefix a prefix. */
  lemma PrefixExtend<T>(h: seq<T>, x: seq<T>, y: seq<T>)
    requires x <= y
    ensures h + x <= h + y
  {
    assert (h + y)[..|h + x|] == h + x;
  }

  /** A sequence is what precedes position `i`, the element there, and what follows. */
  lemma SplitAround<T>(s: seq<T>, i: nat)
    requires i < |s|
    ensures s == s[..i] + [s[i]] + s[i + 1..]
  {
  }
}

=== FILE: wrappers.dfy ===
/** The Some/None datatype used for PHP's `null` / `false` returns. */
module Wrappers {

  datatype Option<+T> = None | Some(value: T)

}
